=== FILE: README.md ===
# Biquaternionic matrices

A model of `Biquaternionic-Matrix.py`. That file works with biquaternions: quaternions
`a + b·Î + c·Ĵ + d·K̂` whose four coefficients are complex numbers. It also works with
2 by 2 matrices of biquaternions, its class `BQ_Matrix`. The model is written in exact
arithmetic over Dafny's `real`. It is built from these modules:

- `Wrappers`: the `Result` type. Every place where the source falls through to `None`
  becomes a `Failure`, tagged with a `Fault`:
  - `NoneReturned`: the function returned `None`.
  - `NoneOperand`: an operator was applied to `None`, which raises in Python.
  - `Indeterminable`: `det` printed its message and returned nothing.
- `Complexes`: exact complex coefficients, with the reciprocal of a nonzero number.
- `Quaternions`: the arithmetic the source takes from sympy's `Quaternion`:
  - `+` and `-`;
  - the Hamilton product;
  - sympy's `conjugate`;
  - the squared norm, computed in complex arithmetic;
  - the mathematical inverse, which differs from sympy's `inverse()` when the squared norm is not real.
- `Biquaternion`: the following parts of the source:
  - the constants `Z`, `U`, `i`, `Ihat`, `Jhat`, `Khat`;
  - the basis lookup `V`;
  - the seven conjugations `star`, `tilde`, `bar`, `hat`, `asterix`, `sthat`, `stasterix`;
  - the selector `conj(q, k, n, m)`.
- `BQMatrix`: these `BQ_Matrix` methods:
  - `comp`, `scale`, `add`, `dot`;
  - `commutator`, `anticommutator`;
  - `tr`, `det`, `T`, `Conj`, `dag`.

Where a comment in the source and its code disagree, the model follows the code:

- In `scale`, side 0 computes `a*entry` and side 1 computes `entry*a`. The comments on
  those two branches call them right and left multiplication, which is the other way round.
- `dot` builds its result by calling `Q` (line 288). The only `Q` in scope is sympy's
  assumptions object, brought in by `from sympy import *` on line 1. That object cannot be
  called, so as written `dot` raises on every call, and `commutator` and `anticommutator`
  raise with it. The model reads `Q` as the `BQ_Matrix` constructor, as the method's
  comment (matrix multiplication "keeping order in mind") intends. The arguments go in the
  order `qp00, qp10, qp01, qp11`, which yields the ordinary row-by-column product.
- `det`'s first branch `- self.q10*self.q01` parses as `(-q10)*q01`. The model computes it
  that way and proves it equal to `-(q10*q01)`.

## Model

| member | source | states |
|---|---|---|
| Biquaternion.V | Biquaternionic-Matrix.py:33-38 | V(n) exists exactly for n in 0..3, and is otherwise None. V(n) is the n-th basis unit: its j-th coefficient is 1 when j = n and 0 otherwise. |
| Biquaternion.StarInvolution | Biquaternionic-Matrix.py:73 | star (complex conjugation of each coefficient) undoes itself. |
| Biquaternion.TildeInvolution | Biquaternionic-Matrix.py:75 | tilde (negating the vector part) undoes itself. |
| Biquaternion.BarInvolution | Biquaternionic-Matrix.py:77 | bar = star∘tilde = tilde∘star, so "both at once" does not depend on the order. bar is an involution. |
| Biquaternion.Hat | Biquaternionic-Matrix.py:79 | hat(q, n) has a value exactly for n in 0..3. For any other n, V(n) is None and the unary minus raises. |
| Biquaternion.HatClosedForm | Biquaternionic-Matrix.py:61-62 | -V(n)·q·V(n) keeps the scalar part and the n-th unit, and negates the other two units. For n = 0 it negates everything, since V(0) = 1. |
| Biquaternion.HatInvolution | Biquaternionic-Matrix.py:79 | Applying hat(·, n) to hat(q, n) gives back q. |
| Biquaternion.Asterix | Biquaternionic-Matrix.py:81 | asterix(q, n) has a value exactly for n in 0..3. Otherwise the hat inside it raises. |
| Biquaternion.AsterixClosedForm | Biquaternionic-Matrix.py:64-65 | tilde(hat(q, n)) negates exactly the n-th coefficient. |
| Biquaternion.AsterixInvolution | Biquaternionic-Matrix.py:81 | Applying asterix(·, n) twice gives back q. |
| Biquaternion.Sthat | Biquaternionic-Matrix.py:85 | sthat(q, n) has a value exactly for n in 0..3, and otherwise fails with hat's fault. |
| Biquaternion.SthatIsHatOfStar | Biquaternionic-Matrix.py:85 | star(hat(q, n)) = hat(star(q), n): the basis units are real, so complex conjugation commutes with hat. |
| Biquaternion.SthatInvolution | Biquaternionic-Matrix.py:85 | Applying sthat(·, n) twice gives back q. |
| Biquaternion.Stasterix | Biquaternionic-Matrix.py:83 | stasterix(q, n) has a value exactly for n in 0..3. |
| Biquaternion.StasterixIsAsterixOfStar | Biquaternionic-Matrix.py:83 | star(asterix(q, n)) = asterix(star(q), n). |
| Biquaternion.StasterixInvolution | Biquaternionic-Matrix.py:83 | Applying stasterix(·, n) twice gives back q. |
| Biquaternion.Conj | Biquaternionic-Matrix.py:94-106 | conj gives a value exactly when k is 0, 1 or 2 (for any n and m), or when k is 3 or 4 with m in {0, 1} and n in 0..3. It raises (NoneOperand) exactly when k is 3 or 4 with m in {0, 1}, that is when a bad n reaches hat. Every other rejected selector returns None. |
| Biquaternion.ConjHatForm | Biquaternionic-Matrix.py:98-99 | conj with k = 3 and m = 0 is the hat reflection. |
| Biquaternion.ConjSthatForm | Biquaternionic-Matrix.py:100 | conj with k = 3 and m = 1 is the complex conjugate of that reflection. |
| Biquaternion.ConjInvolution | Biquaternionic-Matrix.py:94-106 | For every selector conj accepts, conj applied to its own result gives back q. |
| Biquaternion.UnitsAnticommute | Biquaternionic-Matrix.py:24-26 | ÎĴ = K̂ but ĴÎ = -K̂: the product of the units does not commute. |
| Biquaternion.MulTilde | Biquaternionic-Matrix.py:122 | q·tilde(q) and tilde(q)·q are both the scalar biquaternion whose value is NormSq(q). |
| Biquaternion.NullExampleHasNoInverse | Biquaternionic-Matrix.py:117-120 | 1 + i·Î is nonzero and has zero norm. It is a zero divisor against its tilde, and no p gives (1 + i·Î)·p = 1. |
| Biquaternion.UnitSquares | Biquaternionic-Matrix.py:21-26 | The constants: the complex i and the units Î, Ĵ, K̂ each square to -1. Unlike Î and Ĵ, the complex i commutes with Î. Z and U are the zero and the one of Quaternions. |
| Biquaternion.Star | Biquaternionic-Matrix.py:73 | No contract of its own. See StarInvolution, StarNeg and StarCommutes. |
| Biquaternion.Tilde | Biquaternionic-Matrix.py:75 | No contract of its own. See TildeInvolution, and MulTilde for the norm q·tilde(q). |
| Biquaternion.Bar | Biquaternionic-Matrix.py:77 | No contract of its own. See BarInvolution. |
| Biquaternion.ConjAsterixForm | Biquaternionic-Matrix.py:103 | conj with k = 4 and m = 0 negates only the n-th coefficient. |
| Biquaternion.ConjStasterixForm | Biquaternionic-Matrix.py:104 | conj with k = 4 and m = 1 is the complex conjugate of that sign change. |
| Quaternions.NormSqZeroIff | Biquaternionic-Matrix.py:124-130 | NormSq(q) = 0 exactly when the real parts and the imaginary parts have equal sums of squares, and the sum of the products of real and imaginary parts is 0. |
| Quaternions.MulConjugate | Biquaternionic-Matrix.py:117-122 | sympy's conjugate multiplies q to the scalar NormSq(q), from either side. |
| Quaternions.MulInverse | Biquaternionic-Matrix.py:117-122 | When NormSq(q) ≠ 0, inverse(q) is a two-sided inverse of q. |
| Quaternions.MulNegFirst | Biquaternionic-Matrix.py:342 | (-p)·q = -(p·q), so the way Python parses `- q10*q01` does not matter. |
| Quaternions.ScalarCommutes | Biquaternionic-Matrix.py:246-248 | A scalar biquaternion Quaternion(z, 0, 0, 0) commutes with every biquaternion. |
| BQMatrix.Add | Biquaternionic-Matrix.py:271-273 | No contract of its own. See AddEntries and AddComm. |
| BQMatrix.Dot | Biquaternionic-Matrix.py:285-288 | No contract of its own. See DotEntries, DotIdentity and DotNotCommutative. |
| BQMatrix.Commutator | Biquaternionic-Matrix.py:303-304 | No contract of its own. See CommutatorIsDifference, CommutatorAntisymmetric and CommutatorZeroIff. |
| BQMatrix.Anticommutator | Biquaternionic-Matrix.py:306-307 | No contract of its own. See AnticommutatorSymmetric and AnticommutatorZeroIff. |
| BQMatrix.Tr | Biquaternionic-Matrix.py:319-320 | No contract of its own. See TrAdd and TrTranspose. |
| BQMatrix.T | Biquaternionic-Matrix.py:357-358 | No contract of its own. See TEntries and TInvolution. |
| BQMatrix.Comp | Biquaternionic-Matrix.py:210-223 | comp(n, m) has a value exactly for n and m both in {0, 1}, and returns None otherwise. |
| BQMatrix.MatrixExtensionality | Biquaternionic-Matrix.py:199-200 | Two matrices whose four entries agree under comp are equal. |
| BQMatrix.Scale | Biquaternionic-Matrix.py:254-259 | scale has a value exactly for side 0 or 1, and returns None for any other side. |
| BQMatrix.ScaleEntries | Biquaternionic-Matrix.py:254-259 | Side 0 multiplies every entry by a from the left (a·entry). Side 1 multiplies from the right (entry·a). |
| BQMatrix.ScaleScalarSides | Biquaternionic-Matrix.py:246-248 | For a scalar biquaternion Quaternion(z, 0, 0, 0), such as `i` (line 23), both sides give the same matrix. |
| BQMatrix.ScaleSidesDiffer | Biquaternionic-Matrix.py:246-248 | For a = Î and any matrix with Ĵ in the corner, the two sides differ, which is why the side must be specified. |
| BQMatrix.AddEntries | Biquaternionic-Matrix.py:271-273 | add sums entry by entry. |
| BQMatrix.AddComm | Biquaternionic-Matrix.py:271-273 | add is commutative. |
| BQMatrix.DotEntries | Biquaternionic-Matrix.py:285-288 | Entry (n, m) of A·P is A(n,0)·P(0,m) + A(n,1)·P(1,m), with A's entries always on the left. |
| BQMatrix.DotIdentity | Biquaternionic-Matrix.py:285-288 | The identity matrix is neutral for dot on both sides. |
| BQMatrix.DotNotCommutative | Biquaternionic-Matrix.py:285-288 | The product is not commutative: the corner matrices with Î and with Ĵ give different products in the two orders, so AB ≠ BA in general. |
| BQMatrix.CommutatorIsDifference | Biquaternionic-Matrix.py:303-304 | Adding P·A scaled by -1 to A·P is the entrywise difference AP - PA. |
| BQMatrix.CommutatorAntisymmetric | Biquaternionic-Matrix.py:303-304 | [A, P] + [P, A] is the zero matrix. |
| BQMatrix.CommutatorZeroIff | Biquaternionic-Matrix.py:295-296 | The commutator is zero exactly when AP = PA. |
| BQMatrix.AnticommutatorSymmetric | Biquaternionic-Matrix.py:306-307 | The anticommutator is symmetric in its two arguments. |
| BQMatrix.AnticommutatorZeroIff | Biquaternionic-Matrix.py:295-296 | The anticommutator is zero exactly when AP = -(PA), the entrywise negation of PA. |
| BQMatrix.TrAdd | Biquaternionic-Matrix.py:319-320 | The trace of a sum is the sum of the traces. |
| BQMatrix.TrTranspose | Biquaternionic-Matrix.py:319-320 | Transposing does not change the trace. |
| BQMatrix.TEntries | Biquaternionic-Matrix.py:357-358 | Entry (n, m) of T(A) is entry (m, n) of A. |
| BQMatrix.TInvolution | Biquaternionic-Matrix.py:357-358 | T keeps the diagonal, swaps only q01 and q10, and undoes itself. |
| BQMatrix.Det | Biquaternionic-Matrix.py:340-347 | det fails exactly when q00 ≠ 0 but NormSq(q00) = 0, and then with the Indeterminable fault. When q00 = 0 it is -(q10·q01). |
| BQMatrix.DetScalarEntries | Biquaternionic-Matrix.py:326-336 | With scalar (commuting) entries, the Dieudonné determinant is the ordinary wz - xy, for either branch. |
| BQMatrix.DetIdentity | Biquaternionic-Matrix.py:340-347 | det of the identity is 1. |
| BQMatrix.DetTriangular | Biquaternionic-Matrix.py:340-347 | When q10 = 0 or q01 = 0 and det exists, det is q00·q11. |
| BQMatrix.DetOfNullPivot | Biquaternionic-Matrix.py:343-345 | A pivot of 1 + i·Î makes the matrix indeterminable, whatever the other entries are. |
| BQMatrix.DetZeroPivotUnits | Biquaternionic-Matrix.py:341-342 | With q00 = 0 and q10 = q01 = 1, det is -1. |
| BQMatrix.Conj | Biquaternionic-Matrix.py:371-372 | The matrix Conj has a value exactly when conj accepts the selector, and otherwise carries conj's fault. |
| BQMatrix.ConjEntries | Biquaternionic-Matrix.py:371-372 | Every entry of Conj(A) is conj of the matching entry of A. |
| BQMatrix.ConjInvolution | Biquaternionic-Matrix.py:371-372 | For every selector conj accepts, Conj applied to its own result gives back A. |
| BQMatrix.ConjTranspose | Biquaternionic-Matrix.py:371-372 | Entrywise conjugation commutes with the transpose. |
| BQMatrix.Dag | Biquaternionic-Matrix.py:374-375 | dag(k, n, m) has a value exactly when conj accepts (k, m, n): n and m are swapped. |
| BQMatrix.DagEntries | Biquaternionic-Matrix.py:374-375 | Entry (i, j) of dag(k, n, m) is conj(A(j, i), k, m, n). |
| BQMatrix.DagInvolution | Biquaternionic-Matrix.py:374-375 | The dagger, as written, undoes itself. |
| BQMatrix.DagSwapsSelector | Biquaternionic-Matrix.py:375 | dag(k, n, m) is the intended conjugate transpose taken with (k, m, n). |
| BQMatrix.DagRejectsHatSelector | Biquaternionic-Matrix.py:375 | For k in {3, 4} and n in {2, 3}, Conj(k, n) has a value but dag(k, n) has none. The intended dagger has one. |
| BQMatrix.DagOfIdentity | Biquaternionic-Matrix.py:375 | dag(3) of the identity is the matrix with -1 on the diagonal. |
| BQMatrix.DagIntended | Biquaternionic-Matrix.py:374-375 | Conj(k, n, m).T() has a value exactly when conj accepts (k, n, m). |
| BQMatrix.DagIntendedEntries | Biquaternionic-Matrix.py:374-375 | Entry (i, j) of the intended dagger is conj(A(j, i), k, n, m). |
| BQMatrix.DagIntendedInvolution | Biquaternionic-Matrix.py:374-375 | The intended dagger undoes itself. |
| BQMatrix.DagIntendedOfIdentity | Biquaternionic-Matrix.py:374-375 | The intended dag(3) leaves the identity unchanged. |

## Left out

- `disp` and `show` (lines 151-153 and 237-239) only substitute display symbols and build a sympy `Matrix` for printing. They are not modelled.
- `quaternize` and `ize` (lines 168-173 and 387-401) build sympy symbols from strings. They are symbolic-engine plumbing and are not modelled. A general biquaternion or matrix parameter stands for their symbolic results.
- The `simplify` calls in `dot` and `det` are the identity under exact arithmetic.
- sympy's `norm()` is the square root of NormSq. Only its vanishing matters to `det` and to the inverse, and the root vanishes exactly when NormSq does, so the model uses NormSq.
- The `print` in `det` is modelled only as the `Indeterminable` failure.
- `.exp()` and the other sympy `Quaternion` methods named in comments are not used by the core.
- sympy's `Quaternion` class itself is not part of this model. The `Quaternions` module defines `+`, `-`, `*`, `conjugate` and `norm` by their formulas over complex coefficients.
- Quaternions.Inverse: is the mathematical two-sided inverse, the conjugate with each coefficient multiplied by the complex number 1/NormSq. It is not sympy's `inverse()`. The quaternions of lines 21-26 and 73-75 are built over the real field, and sympy multiplies such a quaternion by a non-real complex factor c as if c were the quaternion re(c) + im(c)·Î. So when NormSq(q00) is not real, the third branch of `det` (line 347) computes something else in the source. For example, q00 = 1 + i, q01 = q10 = 1, q11 = 0 gives i·Î there and -1 in the model. BQMatrix.DetScalarEntries holds of the model; it describes the source only when w² is real.
- BQMatrix.Det: compares `self.q00 == Z` (line 341) by value. sympy's `==` compares expression trees, so an unsimplified exact zero such as `(1-I)*(1+I) - 2` fails that test in the source, and the matrix then takes the indeterminable branch.
- BQMatrix.Dot: the source raises at line 288, because `Q` there is sympy's assumptions object, which cannot be called. The model reads `Q` as the `BQ_Matrix` constructor, so Dot, Commutator and Anticommutator return the intended products where the source raises.
- The integer `-1` passed to `scale` in `commutator` is modelled as the biquaternion -1. It is real, so sympy's multiplication by it as a number gives the same result.
- BQMatrix.Scale: takes `a` as a biquaternion. In the source `a` may also be a raw sympy number. The source's quaternions are built over the real field, so sympy multiplies by a non-real number c as if it were the biquaternion re(c) + im(c)·Î. For example, `scale(I, 0)` and `scale(I, 1)` multiply each entry by Î from opposite sides. The model does not cover raw numbers; ScaleScalarSides holds for a scalar biquaternion such as `i` (line 23).
- When `conj` rejects the selector, matrix `Conj` and `dag` build a matrix of four `None` entries, or raise when a bad n reaches hat. The model returns a `Failure` carrying conj's fault instead. Whether conj rejects depends only on the selector, so all four entries fail alike.
- Quaternions.MulInverse: proves only the "if" half of the invertibility rule (NormSq ≠ 0 gives an inverse). The "only if" half needs associativity of the Hamilton product, which is not proved here. It is shown instead for the example 1 + i·Î in Biquaternion.NullExampleHasNoInverse.

## Findings

| source | as written | input that shows it | evidently intended | confidence | as-written member | corrected member |
|---|---|---|---|---|---|---|
| Biquaternionic-Matrix.py:375 | `dag(k, n, m)` returns `self.Conj(k, m, n).T()`, so n and m trade places | `dag(3, 2)`, hat about Ĵ, reaches Conj with m = 2 and has no result, while `Conj(3, 2)` has one. `dag(3)` of the identity negates the diagonal. | `self.Conj(k, n, m).T()`: conjugate the entries with the same selector, then transpose | medium; not executed | BQMatrix.DagRejectsHatSelector | BQMatrix.DagIntendedInvolution |

=== FILE: biquaternion.dfy ===
/** The biquaternion layer of Biquaternionic-Matrix.py: the named constants, the
    basis lookup `V`, the seven conjugations and the selector `conj`.
 */
module Biquaternion {
  import C = Complexes
  import opened Quaternions
  import opened Wrappers

  const Z := Quaternions.Zero                               // 0
  const U := Quaternions.One                                // 1
  const ComplexI := Scalar(C.I)                             // complex i
  const Ihat := BQ(C.Zero, C.One, C.Zero, C.Zero)           // quaternionic i
  const Jhat := BQ(C.Zero, C.Zero, C.One, C.Zero)           // quaternionic j
  const Khat := BQ(C.Zero, C.Zero, C.Zero, C.One)           // quaternionic k

  /** The coefficient of the j-th basis element: 0 is the scalar part, 1..3 the
      Î, Ĵ, K̂ parts. */
  function Coef(q: BQ, j: int): C.Complex
    requires 0 <= j <= 3
  {
    if j == 0 then q.a else if j == 1 then q.b else if j == 2 then q.c else q.d
  }

  /** Basis lookup: 1, Î, Ĵ, K̂ for n = 0..3; any other n falls through to None. */
  function V(n: int): (r: Result<BQ>)
    ensures r.Success? <==> 0 <= n <= 3
    ensures r.Failure? ==> r.fault == NoneReturned
    ensures r.Success? ==>
      forall j :: 0 <= j <= 3 ==> Coef(r.value, j) == if j == n then C.One else C.Zero
  {
    if n == 0 then Success(U)
    else if n == 1 then Success(Ihat)
    else if n == 2 then Success(Jhat)
    else if n == 3 then Success(Khat)
    else Failure(NoneReturned)
  }

  /** Complex conjugation of every coefficient. */
  function Star(q: BQ): BQ {
    BQ(C.Conjugate(q.a), C.Conjugate(q.b), C.Conjugate(q.c), C.Conjugate(q.d))
  }

  /** Quaternionic conjugation: the vector part is negated. */
  function Tilde(q: BQ): BQ {
    BQ(q.a, C.Neg(q.b), C.Neg(q.c), C.Neg(q.d))
  }

  /** Both conjugations at once. */
  function Bar(q: BQ): BQ {
    Star(Tilde(q))
  }

  /** `-V(n)*q*V(n)`, read as `((-V(n))*q)*V(n)`. For n outside 0..3, V(n) is None
      and the unary minus raises. HatClosedForm gives the result coefficient by
      coefficient. */
  function Hat(q: BQ, n: int): (r: Result<BQ>)
    ensures r.Success? <==> 0 <= n <= 3
    ensures r.Failure? ==> r.fault == NoneOperand
  {
    match V(n)
    case Success(v) => Success(Mul(Mul(Neg(v), q), v))
    case Failure(_) => Failure(NoneOperand)
  }

  /** `tilde(hat(q, n))`. AsterixClosedForm gives the result coefficient by
      coefficient. */
  function Asterix(q: BQ, n: int): (r: Result<BQ>)
    ensures r.Success? <==> 0 <= n <= 3
    ensures r.Failure? ==> r.fault == NoneOperand
  {
    var h :- Hat(q, n);
    Success(Tilde(h))
  }

  /** `star(asterix(q, n))`. */
  function Stasterix(q: BQ, n: int): (r: Result<BQ>)
    ensures r.Success? <==> 0 <= n <= 3
    ensures r.Failure? ==> r.fault == NoneOperand
  {
    var s :- Asterix(q, n);
    Success(Star(s))
  }

  /** `star(hat(q, n))`. */
  function Sthat(q: BQ, n: int): (r: Result<BQ>)
    ensures r.Success? <==> 0 <= n <= 3
    ensures r.Failure? ==> r.fault == NoneOperand
  {
    var h :- Hat(q, n);
    Success(Star(h))
  }

  /** The selectors (k, n, m) for which conj returns a biquaternion. */
  predicate Selects(k: int, n: int, m: int) {
    0 <= k <= 2 || (3 <= k <= 4 && 0 <= m <= 1 && 0 <= n <= 3)
  }

  /** `conj(q, k, n, m)`, with the source's defaults k = 0, n = 1, m = 0. k = 0, 1, 2
      select star, tilde, bar whatever n and m are; k = 3 selects hat (m = 0) or
      sthat (m = 1) and k = 4 asterix (m = 0) or stasterix (m = 1), which need n in
      0..3; any other k, or any other m with k = 3 or 4, falls through to None. */
  function Conj(q: BQ, k: int := 0, n: int := 1, m: int := 0): (r: Result<BQ>)
    ensures r.Success? <==> Selects(k, n, m)
    ensures r.Failure? ==> (r.fault == NoneOperand <==> 3 <= k <= 4 && 0 <= m <= 1)
    ensures r.Failure? ==> r.fault != Indeterminable
  {
    if k == 0 then Success(Star(q))
    else if k == 1 then Success(Tilde(q))
    else if k == 2 then Success(Bar(q))
    else if k == 3 then
      if m == 0 then Hat(q, n)
      else if m == 1 then Sthat(q, n)
      else Failure(NoneReturned)
    else if k == 4 then
      if m == 0 then Asterix(q, n)
      else if m == 1 then Stasterix(q, n)
      else Failure(NoneReturned)
    else Failure(NoneReturned)
  }

  // Products with the basis elements, from the multiplication table
  // Î^2 = Ĵ^2 = K̂^2 = ÎĴK̂ = -1.

  lemma MulNegOneLeft(q: BQ)
    ensures Mul(Neg(U), q) == Neg(q)
  {
    C.UnitLaws(q.a); C.UnitLaws(q.b); C.UnitLaws(q.c); C.UnitLaws(q.d);
  }

  lemma MulNegIhatLeft(q: BQ)
    ensures Mul(Neg(Ihat), q) == BQ(q.b, C.Neg(q.a), q.d, C.Neg(q.c))
  {
    C.UnitLaws(q.a); C.UnitLaws(q.b); C.UnitLaws(q.c); C.UnitLaws(q.d);
  }

  lemma MulNegJhatLeft(q: BQ)
    ensures Mul(Neg(Jhat), q) == BQ(q.c, C.Neg(q.d), C.Neg(q.a), q.b)
  {
    C.UnitLaws(q.a); C.UnitLaws(q.b); C.UnitLaws(q.c); C.UnitLaws(q.d);
  }

  lemma MulNegKhatLeft(q: BQ)
    ensures Mul(Neg(Khat), q) == BQ(q.d, q.c, C.Neg(q.b), C.Neg(q.a))
  {
    C.UnitLaws(q.a); C.UnitLaws(q.b); C.UnitLaws(q.c); C.UnitLaws(q.d);
  }

  lemma MulIhatRight(p: BQ)
    ensures Mul(p, Ihat) == BQ(C.Neg(p.b), p.a, p.d, C.Neg(p.c))
  {
    C.UnitLaws(p.a); C.UnitLaws(p.b); C.UnitLaws(p.c); C.UnitLaws(p.d);
  }

  lemma MulJhatRight(p: BQ)
    ensures Mul(p, Jhat) == BQ(C.Neg(p.c), C.Neg(p.d), p.a, p.b)
  {
    C.UnitLaws(p.a); C.UnitLaws(p.b); C.UnitLaws(p.c); C.UnitLaws(p.d);
  }

  lemma MulKhatRight(p: BQ)
    ensures Mul(p, Khat) == BQ(C.Neg(p.d), p.c, C.Neg(p.b), p.a)
  {
    C.UnitLaws(p.a); C.UnitLaws(p.b); C.UnitLaws(p.c); C.UnitLaws(p.d);
  }

  /** ÎĴ = K̂ but ĴÎ = -K̂: the product does not commute. */
  lemma UnitsAnticommute()
    ensures Mul(Ihat, Jhat) == Khat && Mul(Jhat, Ihat) == Neg(Khat)
  {
    IhatJhat();
    JhatIhat();
  }

  /** The complex i and the three quaternionic units all square to -1; unlike Î
      and Ĵ, the complex i commutes with Î. */
  lemma UnitSquares()
    ensures Mul(ComplexI, ComplexI) == Neg(U)
    ensures Mul(Ihat, Ihat) == Neg(U) && Mul(Jhat, Jhat) == Neg(U) && Mul(Khat, Khat) == Neg(U)
    ensures Mul(ComplexI, Ihat) == Mul(Ihat, ComplexI)
  {
    MulScalars(C.I, C.I);
    MulIhatRight(Ihat);
    MulJhatRight(Jhat);
    MulKhatRight(Khat);
    ScalarCommutes(C.I, Ihat);
  }

  lemma IhatJhat()
    ensures Mul(Ihat, Jhat) == Khat
  {
    MulJhatRight(Ihat);
  }

  lemma JhatIhat()
    ensures Mul(Jhat, Ihat) == Neg(Khat)
  {
    MulIhatRight(Jhat);
  }

  /** The four reflections `-V(n)*q*V(n)` written out coefficient by coefficient. */
  lemma HatProducts(q: BQ)
    ensures Mul(Mul(Neg(U), q), U) == Neg(q)
    ensures Mul(Mul(Neg(Ihat), q), Ihat) == BQ(q.a, q.b, C.Neg(q.c), C.Neg(q.d))
    ensures Mul(Mul(Neg(Jhat), q), Jhat) == BQ(q.a, C.Neg(q.b), q.c, C.Neg(q.d))
    ensures Mul(Mul(Neg(Khat), q), Khat) == BQ(q.a, C.Neg(q.b), C.Neg(q.c), q.d)
  {
    C.UnitLaws(q.a); C.UnitLaws(q.b); C.UnitLaws(q.c); C.UnitLaws(q.d);
    MulNegOneLeft(q);
    MulOneRight(Neg(q));
    MulNegIhatLeft(q);
    MulIhatRight(Mul(Neg(Ihat), q));
    MulNegJhatLeft(q);
    MulJhatRight(Mul(Neg(Jhat), q));
    MulNegKhatLeft(q);
    MulKhatRight(Mul(Neg(Khat), q));
  }

  // hat(q, n) unfolded to its product, one n at a time.

  lemma HatUnfoldZero(q: BQ)
    ensures Hat(q, 0) == Success(Mul(Mul(Neg(U), q), U))
  {}

  lemma HatUnfoldOne(q: BQ)
    ensures Hat(q, 1) == Success(Mul(Mul(Neg(Ihat), q), Ihat))
  {}

  lemma HatUnfoldTwo(q: BQ)
    ensures Hat(q, 2) == Success(Mul(Mul(Neg(Jhat), q), Jhat))
  {}

  lemma HatUnfoldThree(q: BQ)
    ensures Hat(q, 3) == Success(Mul(Mul(Neg(Khat), q), Khat))
  {}

  /** Negates x when flip holds. */
  function NegIf(x: C.Complex, flip: bool): C.Complex {
    if flip then C.Neg(x) else x
  }

  /** What the documentation says hat does: for n = 1..3 it conjugates (negates)
      every unit but 1 and the n-th one; V(0) = 1, so for n = 0 everything is
      negated. */
  function Reflection(q: BQ, n: int): BQ {
    if n == 0 then Neg(q)
    else BQ(q.a, NegIf(q.b, n != 1), NegIf(q.c, n != 2), NegIf(q.d, n != 3))
  }

  /** What the documentation says asterix does: it conjugates only the n-th unit. */
  function UnitFlip(q: BQ, n: int): BQ {
    BQ(NegIf(q.a, n == 0), NegIf(q.b, n == 1), NegIf(q.c, n == 2), NegIf(q.d, n == 3))
  }

  /** hat(q, n) = -V(n)*q*V(n) is the coefficient-wise reflection. */
  lemma HatClosedForm(q: BQ, n: int)
    requires 0 <= n <= 3
    ensures Hat(q, n) == Success(Reflection(q, n))
  {
    if n == 0 {
      HatCaseZero(q, n);
    } else if n == 1 {
      HatCaseOne(q, n);
    } else if n == 2 {
      HatCaseTwo(q, n);
    } else {
      HatCaseThree(q, n);
    }
  }

  // Each case takes n as a parameter fixed by its requires rather than as a
  // literal: a literal n lets the solver expand the products eagerly, and these
  // proofs then run out of resource.

  lemma HatCaseZero(q: BQ, n: int)
    requires n == 0
    ensures Hat(q, n) == Success(Reflection(q, n))
  {
    HatUnfoldZero(q);
    HatProducts(q);
  }

  lemma HatCaseOne(q: BQ, n: int)
    requires n == 1
    ensures Hat(q, n) == Success(Reflection(q, n))
  {
    HatUnfoldOne(q);
    HatProducts(q);
  }

  lemma HatCaseTwo(q: BQ, n: int)
    requires n == 2
    ensures Hat(q, n) == Success(Reflection(q, n))
  {
    HatUnfoldTwo(q);
    HatProducts(q);
  }

  lemma HatCaseThree(q: BQ, n: int)
    requires n == 3
    ensures Hat(q, n) == Success(Reflection(q, n))
  {
    HatUnfoldThree(q);
    HatProducts(q);
  }

  /** asterix(q, n) = tilde(hat(q, n)) negates exactly the n-th coefficient. */
  lemma AsterixClosedForm(q: BQ, n: int)
    requires 0 <= n <= 3
    ensures Asterix(q, n) == Success(UnitFlip(q, n))
  {
    HatClosedForm(q, n);
    C.UnitLaws(q.a); C.UnitLaws(q.b); C.UnitLaws(q.c); C.UnitLaws(q.d);
  }

  // The conjugations are involutions.

  lemma StarInvolution(q: BQ)
    ensures Star(Star(q)) == q
  {}

  lemma TildeInvolution(q: BQ)
    ensures Tilde(Tilde(q)) == q
  {}

  /** The two conjugations commute, so "both at once" does not depend on the order;
      bar is an involution. */
  lemma BarInvolution(q: BQ)
    ensures Bar(q) == Tilde(Star(q))
    ensures Bar(Bar(q)) == q
  {}

  lemma HatInvolution(q: BQ, n: int, h: BQ)
    requires Hat(q, n) == Success(h)
    ensures Hat(h, n) == Success(q)
  {
    HatClosedForm(q, n);
    HatClosedForm(h, n);
    FlipsInvolutive(q, n);
  }

  lemma AsterixInvolution(q: BQ, n: int, s: BQ)
    requires Asterix(q, n) == Success(s)
    ensures Asterix(s, n) == Success(q)
  {
    AsterixClosedForm(q, n);
    AsterixClosedForm(s, n);
    FlipsInvolutive(q, n);
  }

  lemma SthatClosedForm(q: BQ, n: int)
    requires 0 <= n <= 3
    ensures Sthat(q, n) == Success(Star(Reflection(q, n)))
  {
    HatClosedForm(q, n);
  }

  lemma StasterixClosedForm(q: BQ, n: int)
    requires 0 <= n <= 3
    ensures Stasterix(q, n) == Success(Star(UnitFlip(q, n)))
  {
    AsterixClosedForm(q, n);
  }

  /** Complex conjugation commutes with the sign changes. */
  lemma StarCommutes(q: BQ, n: int)
    ensures Star(Reflection(q, n)) == Reflection(Star(q), n)
    ensures Star(UnitFlip(q, n)) == UnitFlip(Star(q), n)
  {}

  /** The sign changes are involutions, alone and after complex conjugation. */
  lemma FlipsInvolutive(q: BQ, n: int)
    ensures Reflection(Reflection(q, n), n) == q
    ensures UnitFlip(UnitFlip(q, n), n) == q
    ensures Star(Reflection(Star(Reflection(q, n)), n)) == q
    ensures Star(UnitFlip(Star(UnitFlip(q, n)), n)) == q
  {
    C.UnitLaws(q.a); C.UnitLaws(q.b); C.UnitLaws(q.c); C.UnitLaws(q.d);
  }

  /** The basis units have real coefficients, so complex conjugation commutes with
      hat: sthat(q, n) = hat(star(q), n). */
  lemma SthatIsHatOfStar(q: BQ, n: int)
    requires 0 <= n <= 3
    ensures Sthat(q, n) == Hat(Star(q), n)
  {
    SthatClosedForm(q, n);
    HatClosedForm(Star(q), n);
    StarCommutes(q, n);
  }

  /** Likewise stasterix(q, n) = asterix(star(q), n). */
  lemma StasterixIsAsterixOfStar(q: BQ, n: int)
    requires 0 <= n <= 3
    ensures Stasterix(q, n) == Asterix(Star(q), n)
  {
    StasterixClosedForm(q, n);
    AsterixClosedForm(Star(q), n);
    StarCommutes(q, n);
  }

  lemma SthatInvolution(q: BQ, n: int, s: BQ)
    requires Sthat(q, n) == Success(s)
    ensures Sthat(s, n) == Success(q)
  {
    SthatClosedForm(q, n);
    SthatClosedForm(s, n);
    FlipsInvolutive(q, n);
  }

  lemma StasterixInvolution(q: BQ, n: int, s: BQ)
    requires Stasterix(q, n) == Success(s)
    ensures Stasterix(s, n) == Success(q)
  {
    StasterixClosedForm(q, n);
    StasterixClosedForm(s, n);
    FlipsInvolutive(q, n);
  }

  /** Complex conjugation commutes with negation. */
  lemma StarNeg(q: BQ)
    ensures Star(Neg(q)) == Neg(Star(q))
  {}

  /** conj with k = 3, m = 0 is the reflection hat describes. */
  lemma ConjHatForm(q: BQ, k: int, n: int, m: int)
    requires k == 3 && m == 0 && 0 <= n <= 3
    ensures Conj(q, k, n, m) == Success(Reflection(q, n))
  {
    ConjSelectsHat(q, k, n, m);
    HatClosedForm(q, n);
  }

  lemma ConjSelectsHat(q: BQ, k: int, n: int, m: int)
    requires k == 3 && m == 0
    ensures Conj(q, k, n, m) == Hat(q, n)
  {}

  lemma ConjSelectsSthat(q: BQ, k: int, n: int, m: int)
    requires k == 3 && m == 1
    ensures Conj(q, k, n, m) == Sthat(q, n)
  {}

  /** conj with k = 3, m = 1 is the complex conjugate of that reflection. */
  lemma ConjSthatForm(q: BQ, k: int, n: int, m: int)
    requires k == 3 && m == 1 && 0 <= n <= 3
    ensures Conj(q, k, n, m) == Success(Star(Reflection(q, n)))
  {
    ConjSelectsSthat(q, k, n, m);
    SthatClosedForm(q, n);
  }

  lemma ConjSelectsAsterix(q: BQ, k: int, n: int, m: int)
    requires k == 4 && m == 0
    ensures Conj(q, k, n, m) == Asterix(q, n)
  {}

  lemma ConjSelectsStasterix(q: BQ, k: int, n: int, m: int)
    requires k == 4 && m == 1
    ensures Conj(q, k, n, m) == Stasterix(q, n)
  {}

  /** conj with k = 4, m = 0 negates only the n-th coefficient. */
  lemma ConjAsterixForm(q: BQ, k: int, n: int, m: int)
    requires k == 4 && m == 0 && 0 <= n <= 3
    ensures Conj(q, k, n, m) == Success(UnitFlip(q, n))
  {
    ConjSelectsAsterix(q, k, n, m);
    AsterixClosedForm(q, n);
  }

  /** conj with k = 4, m = 1 is the complex conjugate of that sign change. */
  lemma ConjStasterixForm(q: BQ, k: int, n: int, m: int)
    requires k == 4 && m == 1 && 0 <= n <= 3
    ensures Conj(q, k, n, m) == Success(Star(UnitFlip(q, n)))
  {
    ConjSelectsStasterix(q, k, n, m);
    StasterixClosedForm(q, n);
  }

  /** Every conjugation conj selects is undone by applying it again. */
  lemma ConjInvolution(q: BQ, k: int, n: int, m: int, r: BQ)
    requires Conj(q, k, n, m) == Success(r)
    ensures Conj(r, k, n, m) == Success(q)
  {
    if k == 0 {
      StarInvolution(q);
    } else if k == 1 {
      TildeInvolution(q);
    } else if k == 2 {
      BarInvolution(q);
    } else if k == 3 && m == 0 {
      HatInvolution(q, n, r);
    } else if k == 3 && m == 1 {
      SthatInvolution(q, n, r);
    } else if k == 4 && m == 0 {
      AsterixInvolution(q, n, r);
    } else {
      StasterixInvolution(q, n, r);
    }
  }

  /** The documentation's "norm" q*tilde(q) is the scalar NormSq(q), in either
      order; so q is invertible exactly off the locus NormVanishes describes. */
  lemma MulTilde(q: BQ)
    ensures Mul(q, Tilde(q)) == Scalar(NormSq(q))
    ensures Mul(Tilde(q), q) == Scalar(NormSq(q))
  {
    assert Tilde(q) == Conjugate(q);
    MulConjugate(q);
  }

  /** 1 + i·Î: a nonzero biquaternion whose norm vanishes. */
  const NullExample := BQ(C.One, C.I, C.Zero, C.Zero)

  /** The invertibility condition is not "some coefficient is nonzero": 1 + i·Î is
      nonzero, has NormSq zero, is a zero divisor against its own tilde, and has no
      right inverse. */
  lemma NullExampleHasNoInverse()
    ensures NullExample != Z && NormSq(NullExample) == C.Zero
    ensures Mul(NullExample, Tilde(NullExample)) == Z && Tilde(NullExample) != Z
    ensures forall p :: Mul(NullExample, p) != U
  {
    NullExampleNorm();
    NullExampleNonzero();
    NullExampleNoRightInverse();
  }

  lemma NullExampleNonzero()
    ensures NullExample != Z && Tilde(NullExample) != Z
  {
    assert NullExample.a != C.Zero;
  }

  lemma NullExampleNoRightInverse()
    ensures forall p :: Mul(NullExample, p) != U
  {
    forall p: BQ ensures Mul(NullExample, p) != U {
      NullProduct(p);
    }
  }

  lemma NullExampleNorm()
    ensures NormSq(NullExample) == C.Zero
    ensures Mul(NullExample, Tilde(NullExample)) == Z
  {
    NullExampleNormSq();
    MulTilde(NullExample);
  }

  lemma NullExampleNormSq()
    ensures NormSq(NullExample) == C.Zero
  {}

  /** The scalar and Î coefficients of (1 + i·Î)·p are p.a - i·p.b and
      i·p.a + p.b, which cannot be 1 and 0 at once. */
  lemma NullProduct(p: BQ)
    ensures Mul(NullExample, p) != U
  {
    C.UnitLaws(p.a); C.UnitLaws(p.b); C.UnitLaws(p.c); C.UnitLaws(p.d);
  }
}

=== FILE: bq_matrix.dfy ===
/** The class BQ_Matrix of Biquaternionic-Matrix.py: 2 by 2 matrices
        q00 q01
        q10 q11
    of biquaternions, with entry lookup, scaling, sum, product, (anti)commutator,
    trace, transpose, the Dieudonné determinant, and entrywise conjugation and dagger.
 */
module BQMatrix {
  import C = Complexes
  import Q = Quaternions
  import B = Biquaternion
  import opened Wrappers

  datatype Matrix = Matrix(q00: Q.BQ, q01: Q.BQ, q10: Q.BQ, q11: Q.BQ)

  const ZeroMatrix := Matrix(B.Z, B.Z, B.Z, B.Z)
  const Identity := Matrix(B.U, B.Z, B.Z, B.U)

  /** The source's scalar `-1`, a biquaternion with scalar part -1. */
  const MinusOne := Q.Neg(B.U)

  /** Row n, column m, when both are 0 or 1; any other index falls through to None. */
  function Comp(A: Matrix, n: int, m: int): (r: Result<Q.BQ>)
    ensures r.Success? <==> 0 <= n <= 1 && 0 <= m <= 1
    ensures r.Failure? ==> r.fault == NoneReturned
  {
    if n == 0 then
      if m == 0 then Success(A.q00)
      else if m == 1 then Success(A.q01)
      else Failure(NoneReturned)
    else if n == 1 then
      if m == 0 then Success(A.q10)
      else if m == 1 then Success(A.q11)
      else Failure(NoneReturned)
    else Failure(NoneReturned)
  }

  /** The entry Comp finds at an index in range. */
  function Entry(A: Matrix, n: int, m: int): Q.BQ
    requires 0 <= n <= 1 && 0 <= m <= 1
  {
    Comp(A, n, m).value
  }

  /** A matrix is determined by its four entries. */
  lemma MatrixExtensionality(A: Matrix, P: Matrix)
    requires forall n, m | n in {0, 1} && m in {0, 1} :: Entry(A, n, m) == Entry(P, n, m)
    ensures A == P
  {
    assert Entry(A, 0, 0) == Entry(P, 0, 0);
    assert Entry(A, 0, 1) == Entry(P, 0, 1);
    assert Entry(A, 1, 0) == Entry(P, 1, 0);
    assert Entry(A, 1, 1) == Entry(P, 1, 1);
  }

  /** `scale(a, side)`. Side 0 (the default) multiplies every entry by a from the
      left, `a*entry`, side 1 from the right, `entry*a`; any other side falls
      through to None. */
  function Scale(A: Matrix, a: Q.BQ, side: int := 0): (r: Result<Matrix>)
    ensures r.Success? <==> side == 0 || side == 1
    ensures r.Failure? ==> r.fault == NoneReturned
  {
    if side == 0 then Success(Matrix(Q.Mul(a, A.q00), Q.Mul(a, A.q01), Q.Mul(a, A.q10), Q.Mul(a, A.q11)))
    else if side == 1 then Success(Matrix(Q.Mul(A.q00, a), Q.Mul(A.q01, a), Q.Mul(A.q10, a), Q.Mul(A.q11, a)))
    else Failure(NoneReturned)
  }

  /** Entrywise sum. */
  function Add(A: Matrix, P: Matrix): Matrix {
    Matrix(Q.Add(A.q00, P.q00), Q.Add(A.q01, P.q01), Q.Add(A.q10, P.q10), Q.Add(A.q11, P.q11))
  }

  /** The product. The source names its partial results qp00, qp10, qp01, qp11 and
      passes them in that order to `Q`, read here as the `BQ_Matrix` constructor,
      whose parameters are q00, q01, q10, q11; the result is the ordinary
      row-by-column product with the left factor's entries always on the left
      (see DotEntries). */
  function Dot(A: Matrix, P: Matrix): Matrix {
    var qp00 := Q.Add(Q.Mul(A.q00, P.q00), Q.Mul(A.q01, P.q10));
    var qp10 := Q.Add(Q.Mul(A.q00, P.q01), Q.Mul(A.q01, P.q11));
    var qp01 := Q.Add(Q.Mul(A.q10, P.q00), Q.Mul(A.q11, P.q10));
    var qp11 := Q.Add(Q.Mul(A.q10, P.q01), Q.Mul(A.q11, P.q11));
    Matrix(qp00, qp10, qp01, qp11)
  }

  /** Entrywise difference, the reference for the commutator. */
  function Sub(A: Matrix, P: Matrix): Matrix {
    Matrix(Q.Sub(A.q00, P.q00), Q.Sub(A.q01, P.q01), Q.Sub(A.q10, P.q10), Q.Sub(A.q11, P.q11))
  }

  /** `A.dot(P).add(P.dot(A).scale(-1))`: the commutator, as the source builds it. */
  function Commutator(A: Matrix, P: Matrix): Matrix {
    Add(Dot(A, P), Scale(Dot(P, A), MinusOne).value)
  }

  /** Entrywise negation, the reference for the anticommutator. */
  function MatNeg(A: Matrix): Matrix {
    Matrix(Q.Neg(A.q00), Q.Neg(A.q01), Q.Neg(A.q10), Q.Neg(A.q11))
  }

  /** `A.dot(P).add(P.dot(A))`. */
  function Anticommutator(A: Matrix, P: Matrix): Matrix {
    Add(Dot(A, P), Dot(P, A))
  }

  /** The trace: the sum of the diagonal. */
  function Tr(A: Matrix): Q.BQ {
    Q.Add(A.q00, A.q11)
  }

  /** The transpose. */
  function T(A: Matrix): Matrix {
    Matrix(A.q00, A.q10, A.q01, A.q11)
  }

  /** `det()`, the Dieudonné determinant. With q00 = 0 it is -q10*q01 (Python reads
      `- self.q10*self.q01` as (-q10)*q01, the same thing); with q00 nonzero but of
      zero norm the matrix is indeterminable and the source prints a message and
      returns None; otherwise it is q00*q11 - q00*q10*inverse(q00)*q01, multiplied
      left to right. */
  function Det(A: Matrix): (r: Result<Q.BQ>)
    ensures r.Failure? <==> A.q00 != B.Z && Q.NormSq(A.q00) == C.Zero
    ensures r.Failure? ==> r.fault == Indeterminable
    ensures A.q00 == B.Z ==> r == Success(Q.Neg(Q.Mul(A.q10, A.q01)))
  {
    if A.q00 == B.Z then
      Q.MulNegFirst(A.q10, A.q01);
      Success(Q.Mul(Q.Neg(A.q10), A.q01))
    else if Q.NormSq(A.q00) == C.Zero then
      Failure(Indeterminable)
    else
      Success(Q.Sub(Q.Mul(A.q00, A.q11), Q.Mul(Q.Mul(Q.Mul(A.q00, A.q10), Q.Inverse(A.q00)), A.q01)))
  }

  /** `Conj(k, n, m)`: conj with the same selector applied to every entry. Where conj
      gives no biquaternion the source builds a matrix of four None entries (or
      raises, when hat meets a bad n); the model reports the entries' fault. */
  function Conj(A: Matrix, k: int := 0, n: int := 1, m: int := 0): (r: Result<Matrix>)
    ensures r.Success? <==> B.Selects(k, n, m)
    ensures r.Failure? ==> r.fault == B.Conj(A.q00, k, n, m).fault
  {
    match B.Conj(A.q00, k, n, m)
    case Failure(f) => Failure(f)
    case Success(c00) =>
      // conj succeeds or fails by the selector alone, so the other entries succeed too
      Success(Matrix(c00, B.Conj(A.q01, k, n, m).value, B.Conj(A.q10, k, n, m).value,
                     B.Conj(A.q11, k, n, m).value))
  }

  /** `dag(k, n, m)`, which the source writes as `Conj(k, m, n).T()`: n and m trade
      places on the way to Conj. */
  function Dag(A: Matrix, k: int := 0, n: int := 1, m: int := 0): (r: Result<Matrix>)
    ensures r.Success? <==> B.Selects(k, m, n)
  {
    var c :- Conj(A, k, m, n);
    Success(T(c))
  }

  // Entrywise readings of the operations, in terms of Comp's indices.

  /** Side 0 multiplies each entry from the left, side 1 from the right. */
  lemma ScaleEntries(A: Matrix, a: Q.BQ)
    ensures forall n, m | n in {0, 1} && m in {0, 1} ::
      Entry(Scale(A, a, 0).value, n, m) == Q.Mul(a, Entry(A, n, m))
    ensures forall n, m | n in {0, 1} && m in {0, 1} ::
      Entry(Scale(A, a, 1).value, n, m) == Q.Mul(Entry(A, n, m), a)
  {}

  lemma AddEntries(A: Matrix, P: Matrix)
    ensures forall n, m | n in {0, 1} && m in {0, 1} ::
      Entry(Add(A, P), n, m) == Q.Add(Entry(A, n, m), Entry(P, n, m))
  {}

  /** Entry (n, m) of the product is row n of A times column m of P. */
  lemma DotEntries(A: Matrix, P: Matrix)
    ensures forall n, m | n in {0, 1} && m in {0, 1} ::
      Entry(Dot(A, P), n, m) == Q.Add(Q.Mul(Entry(A, n, 0), Entry(P, 0, m)), Q.Mul(Entry(A, n, 1), Entry(P, 1, m)))
  {}

  lemma TEntries(A: Matrix)
    ensures forall n, m | n in {0, 1} && m in {0, 1} :: Entry(T(A), n, m) == Entry(A, m, n)
  {}

  /** Every entry of Conj(A) is conj of the matching entry of A. */
  lemma ConjEntries(A: Matrix, k: int, n: int, m: int)
    requires B.Selects(k, n, m)
    ensures forall i, j | i in {0, 1} && j in {0, 1} ::
      Success(Entry(Conj(A, k, n, m).value, i, j)) == B.Conj(Entry(A, i, j), k, n, m)
  {}

  /** Entry (i, j) of the dagger is conj of entry (j, i), with n and m swapped. */
  lemma DagEntries(A: Matrix, k: int, n: int, m: int)
    requires B.Selects(k, m, n)
    ensures forall i, j | i in {0, 1} && j in {0, 1} ::
      Success(Entry(Dag(A, k, n, m).value, i, j)) == B.Conj(Entry(A, j, i), k, m, n)
  {
    ConjEntries(A, k, m, n);
  }

  // Properties of the matrix operations.

  /** The transpose swaps only the off-diagonal entries. */
  lemma TInvolution(A: Matrix)
    ensures T(T(A)) == A
    ensures T(A).q00 == A.q00 && T(A).q11 == A.q11
    ensures T(A).q01 == A.q10 && T(A).q10 == A.q01
  {}

  lemma TrTranspose(A: Matrix)
    ensures Tr(T(A)) == Tr(A)
  {}

  /** The trace is additive. */
  lemma TrAdd(A: Matrix, P: Matrix)
    ensures Tr(Add(A, P)) == Q.Add(Tr(A), Tr(P))
  {}

  lemma AddComm(A: Matrix, P: Matrix)
    ensures Add(A, P) == Add(P, A)
  {}

  lemma AnticommutatorSymmetric(A: Matrix, P: Matrix)
    ensures Anticommutator(A, P) == Anticommutator(P, A)
  {
    AddComm(Dot(A, P), Dot(P, A));
  }

  /** [A, P] + [P, A] = 0. */
  lemma CommutatorAntisymmetric(A: Matrix, P: Matrix)
    ensures Add(Commutator(A, P), Commutator(P, A)) == ZeroMatrix
  {
    CommutatorIsDifference(A, P);
    CommutatorIsDifference(P, A);
    SubCancels(Dot(A, P), Dot(P, A));
  }

  /** Adding the product scaled by the source's -1 is subtracting it: [A, P] = AP - PA. */
  lemma CommutatorIsDifference(A: Matrix, P: Matrix)
    ensures Commutator(A, P) == Sub(Dot(A, P), Dot(P, A))
  {
    AddNegated(Dot(A, P), Dot(P, A));
  }

  /** X + (-1)Y = X - Y. */
  lemma AddNegated(X: Matrix, Y: Matrix)
    ensures Add(X, Scale(Y, MinusOne).value) == Sub(X, Y)
  {
    B.MulNegOneLeft(Y.q00);
    B.MulNegOneLeft(Y.q01);
    B.MulNegOneLeft(Y.q10);
    B.MulNegOneLeft(Y.q11);
  }

  /** (X - Y) + (Y - X) = 0, entrywise. */
  lemma SubCancels(X: Matrix, Y: Matrix)
    ensures Add(Sub(X, Y), Sub(Y, X)) == ZeroMatrix
  {}

  /** The commutator vanishes exactly when the two products agree. */
  lemma CommutatorZeroIff(A: Matrix, P: Matrix)
    ensures Commutator(A, P) == ZeroMatrix <==> Dot(A, P) == Dot(P, A)
  {
    CommutatorIsDifference(A, P);
    EqualIffDifferenceZero(Commutator(A, P), Dot(A, P), Dot(P, A));
  }

  lemma EqualIffDifferenceZero(D: Matrix, X: Matrix, Y: Matrix)
    requires D == Sub(X, Y)
    ensures D == ZeroMatrix <==> X == Y
  {
    SubZeroIff(X, Y);
  }

  lemma SubZeroIff(X: Matrix, Y: Matrix)
    ensures Sub(X, Y) == ZeroMatrix <==> X == Y
  {}

  /** The anticommutator vanishes exactly when AP = -(PA). */
  lemma AnticommutatorZeroIff(A: Matrix, P: Matrix)
    ensures Anticommutator(A, P) == ZeroMatrix <==> Dot(A, P) == MatNeg(Dot(P, A))
  {
    SumZeroIffNegated(Anticommutator(A, P), Dot(A, P), Dot(P, A));
  }

  lemma SumZeroIffNegated(D: Matrix, X: Matrix, Y: Matrix)
    requires D == Add(X, Y)
    ensures D == ZeroMatrix <==> X == MatNeg(Y)
  {
    AddZeroIff(X, Y);
  }

  lemma AddZeroIff(X: Matrix, Y: Matrix)
    ensures Add(X, Y) == ZeroMatrix <==> X == MatNeg(Y)
  {}

  /** The identity matrix is neutral for the product on both sides. */
  lemma DotIdentity(A: Matrix)
    ensures Dot(Identity, A) == A
    ensures Dot(A, Identity) == A
  {
    DotIdentityLeft(A);
    DotIdentityRight(A);
  }

  lemma DotIdentityLeft(A: Matrix)
    ensures Dot(Identity, A) == A
  {
    NeutralSum(A.q00, A.q10);
    NeutralSum(A.q01, A.q11);
    NeutralSum(A.q10, A.q00);
    NeutralSum(A.q11, A.q01);
    Q.AddComm(Q.Mul(B.Z, A.q00), Q.Mul(B.U, A.q10));
    Q.AddComm(Q.Mul(B.Z, A.q01), Q.Mul(B.U, A.q11));
  }

  lemma DotIdentityRight(A: Matrix)
    ensures Dot(A, Identity) == A
  {
    NeutralSumRight(A.q00, A.q01);
    NeutralSumRight(A.q10, A.q11);
    NeutralSumRight(A.q01, A.q00);
    NeutralSumRight(A.q11, A.q10);
    Q.AddComm(Q.Mul(A.q00, B.Z), Q.Mul(A.q01, B.U));
    Q.AddComm(Q.Mul(A.q10, B.Z), Q.Mul(A.q11, B.U));
  }

  /** The product does not commute: two matrices with Î and Ĵ in the corner
      multiply to different results in the two orders. The units are parameters
      fixed by the requires, as in UnitsDoNotCommute below: with the constants
      written in, the proof runs out of resource. */
  lemma DotNotCommutative(i: Q.BQ, j: Q.BQ)
    requires i == B.Ihat && j == B.Jhat
    ensures Dot(Matrix(i, B.Z, B.Z, B.Z), Matrix(j, B.Z, B.Z, B.Z))
         != Dot(Matrix(j, B.Z, B.Z, B.Z), Matrix(i, B.Z, B.Z, B.Z))
  {
    DotCorner(i, j);
    DotCorner(j, i);
    UnitsDoNotCommute(i, j);
  }

  /** The corner of the product of two corner matrices is the product of the corners. */
  lemma DotCorner(p: Q.BQ, s: Q.BQ)
    ensures Dot(Matrix(p, B.Z, B.Z, B.Z), Matrix(s, B.Z, B.Z, B.Z)).q00 == Q.Mul(p, s)
  {
    Q.MulZeroLeft(B.Z);
    Q.AddZero(Q.Mul(p, s));
  }

  /** 1*p + 0*s = p. */
  lemma NeutralSum(p: Q.BQ, s: Q.BQ)
    ensures Q.Add(Q.Mul(B.U, p), Q.Mul(B.Z, s)) == p
  {
    Q.MulOneLeft(p);
    Q.MulZeroLeft(s);
    Q.AddZero(p);
  }

  /** p*1 + s*0 = p. */
  lemma NeutralSumRight(p: Q.BQ, s: Q.BQ)
    ensures Q.Add(Q.Mul(p, B.U), Q.Mul(s, B.Z)) == p
  {
    Q.MulOneRight(p);
    Q.MulZeroRight(s);
    Q.AddZero(p);
  }
  // The determinant against the commutative determinant wz - xy.

  /** On a matrix of scalar (mutually commuting) entries the Dieudonné determinant is
      the ordinary determinant wz - xy, whether or not w vanishes; it is undefined
      only when w is nonzero with w^2 = 0, which no complex number is. */
  lemma DetScalarEntries(w: C.Complex, x: C.Complex, y: C.Complex, z: C.Complex)
    ensures Det(Matrix(Q.Scalar(w), Q.Scalar(x), Q.Scalar(y), Q.Scalar(z)))
         == Success(Q.Scalar(C.Sub(C.Mul(w, z), C.Mul(x, y))))
  {
    if w == C.Zero {
      DetScalarPivotZero(x, y, z);
    } else {
      DetScalarPivot(w, x, y, z);
    }
  }

  lemma DetScalarPivotZero(x: C.Complex, y: C.Complex, z: C.Complex)
    ensures Det(Matrix(B.Z, Q.Scalar(x), Q.Scalar(y), Q.Scalar(z)))
         == Success(Q.Scalar(C.Sub(C.Mul(C.Zero, z), C.Mul(x, y))))
  {
    Q.MulScalars(y, x);
    Q.NegScalar(C.Mul(y, x));
    C.MulComm(y, x);
    C.MulZero(z);
    C.AddZero(C.Mul(x, y));
  }

  lemma DetScalarPivot(w: C.Complex, x: C.Complex, y: C.Complex, z: C.Complex)
    requires w != C.Zero
    ensures Det(Matrix(Q.Scalar(w), Q.Scalar(x), Q.Scalar(y), Q.Scalar(z)))
         == Success(Q.Scalar(C.Sub(C.Mul(w, z), C.Mul(x, y))))
  {
    var A := Matrix(Q.Scalar(w), Q.Scalar(x), Q.Scalar(y), Q.Scalar(z));
    ScalarPivot(w);
    CrossTermScalar(w, x, y);
    Q.MulScalars(w, z);
    DetFromParts(A, Q.Scalar(C.Mul(w, z)), Q.Scalar(C.Mul(x, y)));
    Q.SubScalars(C.Mul(w, z), C.Mul(x, y));
  }

  /** Det's third branch, for a pivot q00 of nonzero norm. */
  lemma PivotBranch(A: Matrix)
    requires A.q00 != B.Z && Q.NormSq(A.q00) != C.Zero
    ensures Det(A) == Success(Q.Sub(Q.Mul(A.q00, A.q11), Q.Mul(Q.Mul(Q.Mul(A.q00, A.q10), Q.Inverse(A.q00)), A.q01)))
  {
  }

  /** A nonzero complex pivot is a biquaternion pivot of nonzero norm. */
  lemma ScalarPivot(w: C.Complex)
    requires w != C.Zero
    ensures Q.Scalar(w) != B.Z && Q.NormSq(Q.Scalar(w)) != C.Zero
  {
    Q.NormSqScalar(w);
    C.MulNonzero(w, w);
  }

  /** Det's third branch, given the values of its two products. */
  lemma DetFromParts(A: Matrix, p: Q.BQ, s: Q.BQ)
    requires A.q00 != B.Z && Q.NormSq(A.q00) != C.Zero
    requires Q.Mul(A.q00, A.q11) == p
    requires Q.Mul(Q.Mul(Q.Mul(A.q00, A.q10), Q.Inverse(A.q00)), A.q01) == s
    ensures Det(A) == Success(Q.Sub(p, s))
  {
    PivotBranch(A);
  }

  /** With scalar entries w y w^-1 x is just xy. */
  lemma CrossTermScalar(w: C.Complex, x: C.Complex, y: C.Complex)
    requires w != C.Zero && Q.NormSq(Q.Scalar(w)) != C.Zero
    ensures Q.Mul(Q.Mul(Q.Mul(Q.Scalar(w), Q.Scalar(y)), Q.Inverse(Q.Scalar(w))), Q.Scalar(x))
         == Q.Scalar(C.Mul(x, y))
  {
    PivotCancelsScalar(w, y);
    Q.MulScalars(y, x);
    C.MulComm(y, x);
  }

  /** w y w^-1 = y for scalars. */
  lemma PivotCancelsScalar(w: C.Complex, y: C.Complex)
    requires w != C.Zero && Q.NormSq(Q.Scalar(w)) != C.Zero
    ensures Q.Mul(Q.Mul(Q.Scalar(w), Q.Scalar(y)), Q.Inverse(Q.Scalar(w))) == Q.Scalar(y)
  {
    Q.InverseScalar(w);
    C.MulNonzero(w, w);
    var v := C.Inv(C.Mul(w, w));
    Q.MulScalars(w, y);
    ScalarProductCancels(w, y, v);
  }

  lemma ScalarProductCancels(w: C.Complex, y: C.Complex, v: C.Complex)
    requires C.Mul(C.Mul(w, w), v) == C.One
    ensures Q.Mul(Q.Scalar(C.Mul(w, y)), Q.Scalar(C.Mul(w, v))) == Q.Scalar(y)
  {
    Q.MulScalars(C.Mul(w, y), C.Mul(w, v));
    C.CancelPivot(w, y, v);
  }

  /** The determinant of the identity is 1. */
  lemma DetIdentity()
    ensures Det(Identity) == Success(B.U)
  {
    DetScalarEntries(C.One, C.Zero, C.Zero, C.One);
    C.UnitLaws(C.One);
    C.UnitLaws(C.Zero);
  }

  /** A triangular matrix (q10 = 0 or q01 = 0) with a determinant has the product of
      its diagonal as determinant. */
  lemma DetTriangular(A: Matrix)
    requires A.q10 == B.Z || A.q01 == B.Z
    requires Det(A).Success?
    ensures Det(A) == Success(Q.Mul(A.q00, A.q11))
  {
    if A.q00 == B.Z {
      TriangularZeroPivot(A);
    } else {
      var p := Q.Mul(A.q00, A.q11);
      if A.q10 == B.Z {
        CrossTermZeroBelow(A);
      } else {
        CrossTermZeroAbove(A);
      }
      DetFromParts(A, p, B.Z);
      Q.AddZero(p);
    }
  }

  lemma TriangularZeroPivot(A: Matrix)
    requires A.q10 == B.Z || A.q01 == B.Z
    requires A.q00 == B.Z
    ensures Det(A) == Success(Q.Mul(A.q00, A.q11))
  {
    assert Det(A) == Success(Q.Neg(Q.Mul(A.q10, A.q01)));
    ZeroFactor(A.q10, A.q01);
    Q.MulZeroLeft(A.q11);
    Q.AddZero(B.Z);
  }

  lemma ZeroFactor(p: Q.BQ, q: Q.BQ)
    requires p == B.Z || q == B.Z
    ensures Q.Mul(p, q) == B.Z
  {
    if p == B.Z {
      Q.MulZeroLeft(q);
    } else {
      Q.MulZeroRight(p);
    }
  }

  lemma CrossTermZeroBelow(A: Matrix)
    requires A.q10 == B.Z && Q.NormSq(A.q00) != C.Zero
    ensures Q.Mul(Q.Mul(Q.Mul(A.q00, A.q10), Q.Inverse(A.q00)), A.q01) == B.Z
  {
    Q.MulZeroRight(A.q00);
    Q.MulZeroLeft(Q.Inverse(A.q00));
    Q.MulZeroLeft(A.q01);
  }

  lemma CrossTermZeroAbove(A: Matrix)
    requires A.q01 == B.Z && Q.NormSq(A.q00) != C.Zero
    ensures Q.Mul(Q.Mul(Q.Mul(A.q00, A.q10), Q.Inverse(A.q00)), A.q01) == B.Z
  {
    Q.MulZeroRight(Q.Mul(Q.Mul(A.q00, A.q10), Q.Inverse(A.q00)));
  }

  /** A pivot such as 1 + i·Î, nonzero but of zero norm, leaves the determinant
      undefined whatever the other entries are. */
  lemma DetOfNullPivot(A: Matrix)
    requires A.q00 == B.NullExample
    ensures Det(A) == Failure(Indeterminable)
  {
    B.NullExampleNonzero();
    B.NullExampleNormSq();
  }

  /** With a zero pivot and units off the diagonal the determinant is -1. */
  lemma DetZeroPivotUnits(A: Matrix)
    requires A.q00 == B.Z && A.q10 == B.U && A.q01 == B.U
    ensures Det(A) == Success(Q.Neg(B.U))
  {
    Q.MulOneRight(A.q10);
  }

  // Conjugation and the dagger.

  /** Conj with a selector it accepts reads, in each field, conj of that field. */
  lemma ConjFields(A: Matrix, k: int, n: int, m: int)
    requires B.Selects(k, n, m)
    ensures B.Conj(A.q00, k, n, m) == Success(Conj(A, k, n, m).value.q00)
    ensures B.Conj(A.q01, k, n, m) == Success(Conj(A, k, n, m).value.q01)
    ensures B.Conj(A.q10, k, n, m) == Success(Conj(A, k, n, m).value.q10)
    ensures B.Conj(A.q11, k, n, m) == Success(Conj(A, k, n, m).value.q11)
  {}

  /** Conj of a matrix whose fields conj maps to those of R is R. */
  lemma ConjFromFields(A: Matrix, k: int, n: int, m: int, R: Matrix)
    requires B.Conj(A.q00, k, n, m) == Success(R.q00)
    requires B.Conj(A.q01, k, n, m) == Success(R.q01)
    requires B.Conj(A.q10, k, n, m) == Success(R.q10)
    requires B.Conj(A.q11, k, n, m) == Success(R.q11)
    ensures Conj(A, k, n, m) == Success(R)
  {}

  /** Every entrywise conjugation Conj accepts is undone by applying it again. */
  lemma ConjInvolution(A: Matrix, k: int, n: int, m: int, R: Matrix)
    requires Conj(A, k, n, m) == Success(R)
    ensures Conj(R, k, n, m) == Success(A)
  {
    ConjFields(A, k, n, m);
    B.ConjInvolution(A.q00, k, n, m, R.q00);
    B.ConjInvolution(A.q01, k, n, m, R.q01);
    B.ConjInvolution(A.q10, k, n, m, R.q10);
    B.ConjInvolution(A.q11, k, n, m, R.q11);
    ConjFromFields(R, k, n, m, A);
  }

  /** Entrywise conjugation commutes with the transpose. */
  lemma ConjTranspose(A: Matrix, k: int, n: int, m: int)
    requires B.Selects(k, n, m)
    ensures Conj(T(A), k, n, m) == Success(T(Conj(A, k, n, m).value))
  {
    ConjFields(A, k, n, m);
    ConjFromFields(T(A), k, n, m, T(Conj(A, k, n, m).value));
  }

  /** The dagger, as the source computes it, is an involution. */
  lemma DagInvolution(A: Matrix, k: int, n: int, m: int, R: Matrix)
    requires Dag(A, k, n, m) == Success(R)
    ensures Dag(R, k, n, m) == Success(A)
  {
    var c := Conj(A, k, m, n).value;
    assert R == T(c);
    ConjTranspose(c, k, m, n);
    ConjInvolution(A, k, m, n, c);
    TInvolution(Conj(c, k, m, n).value);
  }

  /** The conjugate transpose with the selector passed through unchanged, as Conj
      takes it: `Conj(k, n, m).T()`. */
  function DagIntended(A: Matrix, k: int := 0, n: int := 1, m: int := 0): (r: Result<Matrix>)
    ensures r.Success? <==> B.Selects(k, n, m)
  {
    var c :- Conj(A, k, n, m);
    Success(T(c))
  }

  /** Entry (i, j) of the intended dagger is conj of entry (j, i), with the same
      selector as Conj. */
  lemma DagIntendedEntries(A: Matrix, k: int, n: int, m: int)
    requires B.Selects(k, n, m)
    ensures forall i, j | i in {0, 1} && j in {0, 1} ::
      Success(Entry(DagIntended(A, k, n, m).value, i, j)) == B.Conj(Entry(A, j, i), k, n, m)
  {
    ConjEntries(A, k, n, m);
  }

  lemma DagIntendedInvolution(A: Matrix, k: int, n: int, m: int, R: Matrix)
    requires DagIntended(A, k, n, m) == Success(R)
    ensures DagIntended(R, k, n, m) == Success(A)
  {
    var c := Conj(A, k, n, m).value;
    assert R == T(c);
    ConjTranspose(c, k, n, m);
    ConjInvolution(A, k, n, m, c);
    TInvolution(Conj(c, k, n, m).value);
  }

  /** The dagger as written is the intended one with n and m exchanged. */
  lemma DagSwapsSelector(A: Matrix, k: int, n: int, m: int)
    ensures Dag(A, k, n, m) == DagIntended(A, k, m, n)
  {}

  /** For k = 3 or 4 and n = 2 or 3 (about Ĵ or K̂) Conj accepts the selector, but
      dag(k, n) hands Conj m = n, which conj rejects. */
  lemma DagRejectsHatSelector(A: Matrix, k: int, n: int)
    requires 3 <= k <= 4 && 2 <= n <= 3
    ensures Conj(A, k, n).Success?
    ensures Dag(A, k, n).Failure?
    ensures DagIntended(A, k, n).Success?
  {}

  /** With k = 3 and the defaults n = 1, m = 0, the source's dag reaches Conj with
      n = 0 and m = 1: sthat about the unit 1, which negates and complex-conjugates
      every entry. This lemma and the next take the selector as parameters fixed by
      their requires: stated with literals, the four per-entry conjugations are
      expanded eagerly and the proofs run out of resource. */
  lemma DagDefaultHat(A: Matrix, k: int, n: int, m: int)
    requires k == 3 && n == 1 && m == 0
    ensures Dag(A, k, n, m) == Success(Matrix(B.Star(Q.Neg(A.q00)), B.Star(Q.Neg(A.q10)),
                                              B.Star(Q.Neg(A.q01)), B.Star(Q.Neg(A.q11))))
  {
    B.ConjSthatForm(A.q00, k, m, n);
    B.ConjSthatForm(A.q01, k, m, n);
    B.ConjSthatForm(A.q10, k, m, n);
    B.ConjSthatForm(A.q11, k, m, n);
    ConjFromFields(A, k, m, n, Matrix(B.Star(Q.Neg(A.q00)), B.Star(Q.Neg(A.q01)),
                                      B.Star(Q.Neg(A.q10)), B.Star(Q.Neg(A.q11))));
  }

  /** The intended dagger with the same arguments is hat about Î on every entry. */
  lemma DagIntendedDefaultHat(A: Matrix, k: int, n: int, m: int)
    requires k == 3 && n == 1 && m == 0
    ensures DagIntended(A, k, n, m) == Success(Matrix(B.Reflection(A.q00, n), B.Reflection(A.q10, n),
                                                      B.Reflection(A.q01, n), B.Reflection(A.q11, n)))
  {
    B.ConjHatForm(A.q00, k, n, m);
    B.ConjHatForm(A.q01, k, n, m);
    B.ConjHatForm(A.q10, k, n, m);
    B.ConjHatForm(A.q11, k, n, m);
    ConjFromFields(A, k, n, m, Matrix(B.Reflection(A.q00, n), B.Reflection(A.q01, n),
                                      B.Reflection(A.q10, n), B.Reflection(A.q11, n)));
  }

  /** So dag(3) as written negates the identity's diagonal, while the intended
      dagger leaves the identity alone. */
  lemma DagOfIdentity()
    ensures Dag(Identity, 3) == Success(Matrix(Q.Neg(B.U), B.Z, B.Z, Q.Neg(B.U)))
  {
    DagDefaultHat(Identity, 3, 1, 0);
    UnitsUnderSthat();
  }

  lemma DagIntendedOfIdentity()
    ensures DagIntended(Identity, 3) == Success(Identity)
  {
    DagIntendedDefaultHat(Identity, 3, 1, 0);
    UnitsUnderHat(1);
  }

  lemma UnitsUnderSthat()
    ensures B.Star(Q.Neg(B.U)) == Q.Neg(B.U) && B.Star(Q.Neg(B.Z)) == B.Z
  {
    B.StarNeg(B.U);
    B.StarNeg(B.Z);
  }

  /** n is a parameter rather than the literal 1 because Reflection(U, 1) written
      with literals sends the solver out of resource. */
  lemma UnitsUnderHat(n: int)
    requires n == 1
    ensures B.Reflection(B.U, n) == B.U && B.Reflection(B.Z, n) == B.Z
  {}

  // The two sides of scale.

  /** Scaling by a complex scalar is the same from either side. */
  lemma ScaleScalarSides(A: Matrix, z: C.Complex)
    ensures Scale(A, Q.Scalar(z), 0) == Scale(A, Q.Scalar(z), 1)
  {
    Q.ScalarCommutes(z, A.q00);
    Q.ScalarCommutes(z, A.q01);
    Q.ScalarCommutes(z, A.q10);
    Q.ScalarCommutes(z, A.q11);
  }

  /** Scaling by Î from the two sides differs on a matrix with Ĵ in the corner. */
  lemma ScaleSidesDiffer(A: Matrix)
    requires A.q00 == B.Jhat
    ensures Scale(A, B.Ihat, 0) != Scale(A, B.Ihat, 1)
  {
    UnitsDoNotCommute(B.Ihat, A.q00);
    ScaleCorners(A, B.Ihat);
    DifferentCorners(Scale(A, B.Ihat, 0), Scale(A, B.Ihat, 1));
  }

  lemma ScaleCorners(A: Matrix, a: Q.BQ)
    ensures Scale(A, a, 0).Success? && Scale(A, a, 0).value.q00 == Q.Mul(a, A.q00)
    ensures Scale(A, a, 1).Success? && Scale(A, a, 1).value.q00 == Q.Mul(A.q00, a)
  {}

  lemma DifferentCorners(X: Result<Matrix>, Y: Result<Matrix>)
    requires X.Success? && Y.Success? && X.value.q00 != Y.value.q00
    ensures X != Y
  {}

  /** This lemma and the next name the units through parameters fixed by their
      requires: with the constants written in, the disequality of two literal
      products runs out of resource. */
  lemma UnitsDoNotCommute(i: Q.BQ, j: Q.BQ)
    requires i == B.Ihat && j == B.Jhat
    ensures Q.Mul(i, j) != Q.Mul(j, i)
  {
    B.UnitsAnticommute();
    KhatNotSelfNegating(Q.Mul(i, j));
  }

  lemma KhatNotSelfNegating(k: Q.BQ)
    requires k == B.Khat
    ensures Q.Neg(k) != k
  {
    assert Q.Neg(k).d != k.d;
  }
}

=== FILE: complex.dfy ===
/** Exact complex numbers, the coefficient field of a biquaternion.

    The source keeps each coefficient as a sympy expression `w1 + I*w2` with real
    `w1`, `w2`; here such a coefficient is the pair `(re, im)` of exact reals.
 */
module Complexes {

  datatype Complex = Complex(re: real, im: real)

  const Zero := Complex(0.0, 0.0)
  const One := Complex(1.0, 0.0)
  /** The complex imaginary unit (sympy's `I`), not a quaternionic unit. */
  const I := Complex(0.0, 1.0)

  function Add(x: Complex, y: Complex): Complex {
    Complex(x.re + y.re, x.im + y.im)
  }

  function Neg(x: Complex): Complex {
    Complex(-x.re, -x.im)
  }

  function Sub(x: Complex, y: Complex): Complex {
    Add(x, Neg(y))
  }

  function Mul(x: Complex, y: Complex): Complex {
    Complex(x.re * y.re - x.im * y.im, x.re * y.im + x.im * y.re)
  }

  /** sympy's `conjugate` on a coefficient whose symbols are declared real. */
  function Conjugate(x: Complex): Complex {
    Complex(x.re, -x.im)
  }

  /** |x|^2 = x * conjugate(x), a real number. */
  function AbsSq(x: Complex): real {
    x.re * x.re + x.im * x.im
  }

  /** The reciprocal `1/x` = conjugate(x) / |x|^2, defined for nonzero x. */
  function Inv(x: Complex): (r: Complex)
    requires x != Zero
    ensures Mul(x, r) == One
  {
    AbsSqPositive(x);
    var n := AbsSq(x);
    ReciprocalProduct(x.re, x.im, n);
    Complex(x.re / n, -x.im / n)
  }

  /** The identity on reals. A product `t * Copy(t)` is a square that the solver
      does not rewrite into a sign condition, so positivity facts about it survive. */
  function Copy(t: real): real {
    t
  }

  lemma ProductPositive(a: real, b: real)
    requires a > 0.0 && b > 0.0
    ensures a * b > 0.0
  {}

  lemma SquarePositive(t: real)
    requires t != 0.0
    ensures t * Copy(t) > 0.0
  {
    if t > 0.0 {
      ProductPositive(t, Copy(t));
    } else {
      ProductPositive(-t, -Copy(t));
    }
  }

  lemma SquareNonnegative(t: real)
    ensures t * Copy(t) >= 0.0
  {
    if t != 0.0 {
      SquarePositive(t);
    }
  }

  lemma PositiveSum(p: real, q: real, n: real)
    requires p >= 0.0 && q >= 0.0 && (p > 0.0 || q > 0.0) && n == p + q
    ensures n > 0.0
  {}

  /** |x|^2 vanishes only at zero: the coefficients form a field. */
  lemma AbsSqPositive(x: Complex)
    requires x != Zero
    ensures AbsSq(x) > 0.0
  {
    SquareNonnegative(x.re);
    SquareNonnegative(x.im);
    if x.re != 0.0 {
      SquarePositive(x.re);
    } else {
      assert x.im != 0.0;
      SquarePositive(x.im);
    }
    PositiveSum(x.re * Copy(x.re), x.im * Copy(x.im), AbsSq(x));
  }

  lemma ReciprocalProduct(a: real, b: real, n: real)
    requires n == a * a + b * b && n > 0.0
    ensures a * (a / n) - b * (-b / n) == 1.0
    ensures a * (-b / n) + b * (a / n) == 0.0
  {
    var u, v := a / n, b / n;
    assert a == u * n && b == v * n;
    calc {
      a * (a / n) - b * (-b / n);
      a * u + b * v;
      (a * a + b * b) / n;
      1.0;
    }
    assert a * (-b / n) + b * (a / n) == -(a * v) + b * u;
    assert a * v == a * b / n;
    assert b * u == a * b / n;
  }

  lemma MulComm(x: Complex, y: Complex)
    ensures Mul(x, y) == Mul(y, x)
  {}

  lemma MulAssoc(x: Complex, y: Complex, z: Complex)
    ensures Mul(Mul(x, y), z) == Mul(x, Mul(y, z))
  {}

  /** A product of nonzero complex numbers is nonzero. */
  lemma MulNonzero(x: Complex, y: Complex)
    requires x != Zero && y != Zero
    ensures Mul(x, y) != Zero
  {
    var z := Mul(x, y);
    if z == Zero {
      var w := Inv(x);
      calc {
        y;
        Mul(One, y);
        { MulComm(x, w); }
        Mul(Mul(w, x), y);
        { MulAssoc(w, x, y); }
        Mul(w, z);
        Zero;
      }
    }
  }

  lemma MulRightSwap(x: Complex, y: Complex, z: Complex)
    ensures Mul(Mul(x, y), z) == Mul(Mul(x, z), y)
  {}

  lemma MulAddRight(x: Complex, y: Complex, z: Complex)
    ensures Mul(Add(x, y), z) == Add(Mul(x, z), Mul(y, z))
  {}

  lemma MulNegRight(x: Complex, z: Complex)
    ensures Mul(Neg(x), z) == Neg(Mul(x, z))
  {}

  lemma MulNegLeft(x: Complex, z: Complex)
    ensures Mul(x, Neg(z)) == Neg(Mul(x, z))
  {}

  lemma MulSubRight(x: Complex, y: Complex, z: Complex)
    ensures Mul(Sub(x, y), z) == Sub(Mul(x, z), Mul(y, z))
  {}

  /** Conjugating y by w: w * y * (w * v) is y when w * w * v = 1. */
  lemma CancelPivot(w: Complex, y: Complex, v: Complex)
    requires Mul(Mul(w, w), v) == One
    ensures Mul(Mul(w, y), Mul(w, v)) == y
  {
    var wv := Mul(w, v);
    MulAssoc(w, y, wv);
    MulComm(y, wv);
    MulAssoc(w, wv, y);
    MulAssoc(w, w, v);
    MulOne(y);
  }

  /** The laws of the constants 0, 1 and -1 at one complex number x. */
  lemma UnitLaws(x: Complex)
    ensures Mul(x, Zero) == Zero && Mul(Zero, x) == Zero
    ensures Mul(x, One) == x && Mul(One, x) == x
    ensures Mul(x, Neg(One)) == Neg(x) && Mul(Neg(One), x) == Neg(x)
    ensures Add(x, Zero) == x && Add(Zero, x) == x
    ensures Sub(x, Zero) == x && Sub(Zero, x) == Neg(x)
    ensures Neg(Neg(x)) == x && Neg(Zero) == Zero
  {
    MulZero(x);
    MulOne(x);
    MulNegOne(x);
    AddZero(x);
  }

  lemma MulZero(x: Complex)
    ensures Mul(x, Zero) == Zero && Mul(Zero, x) == Zero
  {}

  lemma MulOne(x: Complex)
    ensures Mul(x, One) == x && Mul(One, x) == x
  {}

  lemma MulNegOne(x: Complex)
    ensures Mul(x, Neg(One)) == Neg(x) && Mul(Neg(One), x) == Neg(x)
  {}

  lemma AddZero(x: Complex)
    ensures Add(x, Zero) == x && Add(Zero, x) == x
    ensures Sub(x, Zero) == x && Sub(Zero, x) == Neg(x)
  {}
}

=== FILE: quaternions.dfy ===
/** The quaternion arithmetic the source borrows from sympy's `Quaternion` class,
    over complex coefficients: `+`, unary and binary `-`, the Hamilton product `*`,
    multiplication by a complex scalar, the squared norm, and the mathematical
    inverse that the invertibility rule refers to.
 */
module Quaternions {
  import C = Complexes

  /** `a + b*Î + c*Ĵ + d*K̂` with complex coefficients. */
  datatype BQ = BQ(a: C.Complex, b: C.Complex, c: C.Complex, d: C.Complex)

  /** The biquaternion whose scalar part is `z` and whose vector part is zero. */
  function Scalar(z: C.Complex): BQ {
    BQ(z, C.Zero, C.Zero, C.Zero)
  }

  const Zero := Scalar(C.Zero)
  const One := Scalar(C.One)

  function Add(p: BQ, q: BQ): BQ {
    BQ(C.Add(p.a, q.a), C.Add(p.b, q.b), C.Add(p.c, q.c), C.Add(p.d, q.d))
  }

  function Neg(q: BQ): BQ {
    BQ(C.Neg(q.a), C.Neg(q.b), C.Neg(q.c), C.Neg(q.d))
  }

  /** sympy subtracts by adding the negation. */
  function Sub(p: BQ, q: BQ): BQ {
    Add(p, Neg(q))
  }

  /** The Hamilton product, coefficient by coefficient as sympy writes it. */
  function Mul(p: BQ, q: BQ): BQ {
    BQ(C.Add(C.Sub(C.Sub(C.Neg(C.Mul(p.b, q.b)), C.Mul(p.c, q.c)), C.Mul(p.d, q.d)), C.Mul(p.a, q.a)),
       C.Add(C.Sub(C.Add(C.Mul(p.b, q.a), C.Mul(p.c, q.d)), C.Mul(p.d, q.c)), C.Mul(p.a, q.b)),
       C.Add(C.Add(C.Add(C.Neg(C.Mul(p.b, q.d)), C.Mul(p.c, q.a)), C.Mul(p.d, q.b)), C.Mul(p.a, q.c)),
       C.Add(C.Add(C.Sub(C.Mul(p.b, q.c), C.Mul(p.c, q.b)), C.Mul(p.d, q.a)), C.Mul(p.a, q.d)))
  }

  /** A quaternion times a commutative (complex) scalar on the right: each coefficient
      is multiplied by `z`. */
  function ScaleBy(q: BQ, z: C.Complex): BQ {
    BQ(C.Mul(q.a, z), C.Mul(q.b, z), C.Mul(q.c, z), C.Mul(q.d, z))
  }

  /** sympy's quaternion conjugate: the vector part is negated, coefficients untouched. */
  function Conjugate(q: BQ): BQ {
    BQ(q.a, C.Neg(q.b), C.Neg(q.c), C.Neg(q.d))
  }

  /** The square of sympy's `norm()`: `a^2 + b^2 + c^2 + d^2` in complex arithmetic,
      with no complex conjugation. Its square root is zero exactly when it is. */
  function NormSq(q: BQ): C.Complex {
    C.Add(C.Add(C.Add(C.Mul(q.a, q.a), C.Mul(q.b, q.b)), C.Mul(q.c, q.c)), C.Mul(q.d, q.d))
  }

  /** The two-sided inverse the invertibility rule calls for: the conjugate scaled
      by the complex reciprocal of NormSq, defined off the zero-norm locus. This is
      the mathematical inverse, not sympy's `inverse()` on a biquaternion; the two
      differ when NormSq is not real. */
  function Inverse(q: BQ): BQ
    requires NormSq(q) != C.Zero
  {
    ScaleBy(Conjugate(q), C.Inv(NormSq(q)))
  }


  /** q * conjugate(q) and conjugate(q) * q are the scalar NormSq(q). */
  lemma MulConjugate(q: BQ)
    ensures Mul(q, Conjugate(q)) == Scalar(NormSq(q))
    ensures Mul(Conjugate(q), q) == Scalar(NormSq(q))
  {
    ConjugateRightA(q);
    ConjugateRightB(q);
    ConjugateRightC(q);
    ConjugateRightD(q);
    ConjugateLeftA(q);
    ConjugateLeftB(q);
    ConjugateLeftC(q);
    ConjugateLeftD(q);
  }

  // MulConjugate coefficient by coefficient: each cancellation needs only
  // the commutativity of the complex product and the sign rules.

  lemma ConjugateRightA(q: BQ)
    ensures Mul(q, Conjugate(q)).a == NormSq(q)
  {
    C.MulNegLeft(q.b, q.b); C.MulNegLeft(q.c, q.c); C.MulNegLeft(q.d, q.d);
  }

  lemma ConjugateRightB(q: BQ)
    ensures Mul(q, Conjugate(q)).b == C.Zero
  {
    C.MulNegLeft(q.c, q.d); C.MulNegLeft(q.d, q.c); C.MulNegLeft(q.a, q.b);
    C.MulComm(q.a, q.b); C.MulComm(q.c, q.d);
  }

  lemma ConjugateRightC(q: BQ)
    ensures Mul(q, Conjugate(q)).c == C.Zero
  {
    C.MulNegLeft(q.b, q.d); C.MulNegLeft(q.d, q.b); C.MulNegLeft(q.a, q.c);
    C.MulComm(q.a, q.c); C.MulComm(q.b, q.d);
  }

  lemma ConjugateRightD(q: BQ)
    ensures Mul(q, Conjugate(q)).d == C.Zero
  {
    C.MulNegLeft(q.b, q.c); C.MulNegLeft(q.c, q.b); C.MulNegLeft(q.a, q.d);
    C.MulComm(q.a, q.d); C.MulComm(q.b, q.c);
  }

  lemma ConjugateLeftA(q: BQ)
    ensures Mul(Conjugate(q), q).a == NormSq(q)
  {
    C.MulNegRight(q.b, q.b); C.MulNegRight(q.c, q.c); C.MulNegRight(q.d, q.d);
  }

  lemma ConjugateLeftB(q: BQ)
    ensures Mul(Conjugate(q), q).b == C.Zero
  {
    C.MulNegRight(q.b, q.a); C.MulNegRight(q.c, q.d); C.MulNegRight(q.d, q.c);
    C.MulComm(q.a, q.b); C.MulComm(q.c, q.d);
  }

  lemma ConjugateLeftC(q: BQ)
    ensures Mul(Conjugate(q), q).c == C.Zero
  {
    C.MulNegRight(q.b, q.d); C.MulNegRight(q.c, q.a); C.MulNegRight(q.d, q.b);
    C.MulComm(q.a, q.c); C.MulComm(q.b, q.d);
  }

  lemma ConjugateLeftD(q: BQ)
    ensures Mul(Conjugate(q), q).d == C.Zero
  {
    C.MulNegRight(q.b, q.c); C.MulNegRight(q.c, q.b); C.MulNegRight(q.d, q.a);
    C.MulComm(q.a, q.d); C.MulComm(q.b, q.c);
  }

  /** The complex conditions under which NormSq vanishes: the real parts and the
      imaginary parts have equal sums of squares, and the real and imaginary parts
      are orthogonal. */
  ghost predicate NormVanishes(q: BQ) {
    && q.a.re * q.a.re + q.b.re * q.b.re + q.c.re * q.c.re + q.d.re * q.d.re
       == q.a.im * q.a.im + q.b.im * q.b.im + q.c.im * q.c.im + q.d.im * q.d.im
    && q.a.re * q.a.im + q.b.re * q.b.im + q.c.re * q.c.im + q.d.re * q.d.im == 0.0
  }

  lemma NormSqZeroIff(q: BQ)
    ensures NormSq(q) == C.Zero <==> NormVanishes(q)
  {}

  /** Multiplying the right factor by a complex scalar scales the product. */
  lemma MulScaleRight(p: BQ, q: BQ, z: C.Complex)
    ensures Mul(p, ScaleBy(q, z)) == ScaleBy(Mul(p, q), z)
  {
    C.MulAssoc(p.a, q.a, z);
    C.MulAssoc(p.b, q.b, z);
    C.MulAssoc(p.c, q.c, z);
    C.MulAssoc(p.d, q.d, z);
    C.MulAssoc(p.a, q.b, z);
    C.MulAssoc(p.b, q.a, z);
    C.MulAssoc(p.c, q.d, z);
    C.MulAssoc(p.d, q.c, z);
    C.MulAssoc(p.a, q.c, z);
    C.MulAssoc(p.b, q.d, z);
    C.MulAssoc(p.c, q.a, z);
    C.MulAssoc(p.d, q.b, z);
    C.MulAssoc(p.a, q.d, z);
    C.MulAssoc(p.b, q.c, z);
    C.MulAssoc(p.c, q.b, z);
    C.MulAssoc(p.d, q.a, z);
    ScaleFirst(C.Mul(p.b, q.b), C.Mul(p.c, q.c), C.Mul(p.d, q.d), C.Mul(p.a, q.a), z);
    ScaleSecond(C.Mul(p.b, q.a), C.Mul(p.c, q.d), C.Mul(p.d, q.c), C.Mul(p.a, q.b), z);
    ScaleThird(C.Mul(p.b, q.d), C.Mul(p.c, q.a), C.Mul(p.d, q.b), C.Mul(p.a, q.c), z);
    ScaleFourth(C.Mul(p.b, q.c), C.Mul(p.c, q.b), C.Mul(p.d, q.a), C.Mul(p.a, q.d), z);
  }

  // The four sign patterns of the Hamilton product's coefficients, each shown to
  // commute with a right factor z.

  lemma ScaleFirst(w: C.Complex, x: C.Complex, y: C.Complex, v: C.Complex, z: C.Complex)
    ensures C.Mul(C.Add(C.Sub(C.Sub(C.Neg(w), x), y), v), z)
         == C.Add(C.Sub(C.Sub(C.Neg(C.Mul(w, z)), C.Mul(x, z)), C.Mul(y, z)), C.Mul(v, z))
  {
    C.MulAddRight(C.Sub(C.Sub(C.Neg(w), x), y), v, z);
    C.MulSubRight(C.Sub(C.Neg(w), x), y, z);
    C.MulSubRight(C.Neg(w), x, z);
    C.MulNegRight(w, z);
  }

  lemma ScaleSecond(w: C.Complex, x: C.Complex, y: C.Complex, v: C.Complex, z: C.Complex)
    ensures C.Mul(C.Add(C.Sub(C.Add(w, x), y), v), z)
         == C.Add(C.Sub(C.Add(C.Mul(w, z), C.Mul(x, z)), C.Mul(y, z)), C.Mul(v, z))
  {
    C.MulAddRight(C.Sub(C.Add(w, x), y), v, z);
    C.MulSubRight(C.Add(w, x), y, z);
    C.MulAddRight(w, x, z);
  }

  lemma ScaleThird(w: C.Complex, x: C.Complex, y: C.Complex, v: C.Complex, z: C.Complex)
    ensures C.Mul(C.Add(C.Add(C.Add(C.Neg(w), x), y), v), z)
         == C.Add(C.Add(C.Add(C.Neg(C.Mul(w, z)), C.Mul(x, z)), C.Mul(y, z)), C.Mul(v, z))
  {
    C.MulAddRight(C.Add(C.Add(C.Neg(w), x), y), v, z);
    C.MulAddRight(C.Add(C.Neg(w), x), y, z);
    C.MulAddRight(C.Neg(w), x, z);
    C.MulNegRight(w, z);
  }

  lemma ScaleFourth(w: C.Complex, x: C.Complex, y: C.Complex, v: C.Complex, z: C.Complex)
    ensures C.Mul(C.Add(C.Add(C.Sub(w, x), y), v), z)
         == C.Add(C.Add(C.Sub(C.Mul(w, z), C.Mul(x, z)), C.Mul(y, z)), C.Mul(v, z))
  {
    C.MulAddRight(C.Add(C.Sub(w, x), y), v, z);
    C.MulAddRight(C.Sub(w, x), y, z);
    C.MulSubRight(w, x, z);
  }

  /** Off the zero-norm locus, Inverse is a two-sided inverse. */
  lemma MulInverse(q: BQ)
    requires NormSq(q) != C.Zero
    ensures Mul(q, Inverse(q)) == One
    ensures Mul(Inverse(q), q) == One
  {
    var n := NormSq(q);
    var z := C.Inv(n);
    MulConjugate(q);
    MulScaleRight(q, Conjugate(q), z);
    assert Mul(q, Inverse(q)) == ScaleBy(Scalar(n), z);
    C.MulComm(n, z);
    assert C.Mul(C.Zero, z) == C.Zero;
    ScaleLeft(Conjugate(q), q, z);
    assert Mul(Inverse(q), q) == ScaleBy(Scalar(n), z);
  }

  /** Multiplying the left factor by a complex scalar scales the product. */
  lemma ScaleLeft(p: BQ, q: BQ, z: C.Complex)
    ensures Mul(ScaleBy(p, z), q) == ScaleBy(Mul(p, q), z)
  {
    C.MulRightSwap(p.a, z, q.a);
    C.MulRightSwap(p.b, z, q.b);
    C.MulRightSwap(p.c, z, q.c);
    C.MulRightSwap(p.d, z, q.d);
    C.MulRightSwap(p.a, z, q.b);
    C.MulRightSwap(p.b, z, q.a);
    C.MulRightSwap(p.c, z, q.d);
    C.MulRightSwap(p.d, z, q.c);
    C.MulRightSwap(p.a, z, q.c);
    C.MulRightSwap(p.b, z, q.d);
    C.MulRightSwap(p.c, z, q.a);
    C.MulRightSwap(p.d, z, q.b);
    C.MulRightSwap(p.a, z, q.d);
    C.MulRightSwap(p.b, z, q.c);
    C.MulRightSwap(p.c, z, q.b);
    C.MulRightSwap(p.d, z, q.a);
    ScaleFirst(C.Mul(p.b, q.b), C.Mul(p.c, q.c), C.Mul(p.d, q.d), C.Mul(p.a, q.a), z);
    ScaleSecond(C.Mul(p.b, q.a), C.Mul(p.c, q.d), C.Mul(p.d, q.c), C.Mul(p.a, q.b), z);
    ScaleThird(C.Mul(p.b, q.d), C.Mul(p.c, q.a), C.Mul(p.d, q.b), C.Mul(p.a, q.c), z);
    ScaleFourth(C.Mul(p.b, q.c), C.Mul(p.c, q.b), C.Mul(p.d, q.a), C.Mul(p.a, q.d), z);
  }

  lemma AddComm(p: BQ, q: BQ)
    ensures Add(p, q) == Add(q, p)
  {}

  /** A negated left factor negates the product. */
  lemma MulNegFirst(p: BQ, q: BQ)
    ensures Mul(Neg(p), q) == Neg(Mul(p, q))
  {
    C.MulNegRight(p.a, q.a); C.MulNegRight(p.a, q.b); C.MulNegRight(p.a, q.c); C.MulNegRight(p.a, q.d);
    C.MulNegRight(p.b, q.a); C.MulNegRight(p.b, q.b); C.MulNegRight(p.b, q.c); C.MulNegRight(p.b, q.d);
    C.MulNegRight(p.c, q.a); C.MulNegRight(p.c, q.b); C.MulNegRight(p.c, q.c); C.MulNegRight(p.c, q.d);
    C.MulNegRight(p.d, q.a); C.MulNegRight(p.d, q.b); C.MulNegRight(p.d, q.c); C.MulNegRight(p.d, q.d);
  }

  lemma AddZero(p: BQ)
    ensures Add(p, Zero) == p && Add(Zero, p) == p
    ensures Sub(p, Zero) == p && Neg(Zero) == Zero
  {
    C.UnitLaws(p.a); C.UnitLaws(p.b); C.UnitLaws(p.c); C.UnitLaws(p.d);
  }

  lemma MulZeroRight(p: BQ)
    ensures Mul(p, Zero) == Zero
  {
    C.MulZero(p.a); C.MulZero(p.b); C.MulZero(p.c); C.MulZero(p.d);
  }

  lemma MulZeroLeft(p: BQ)
    ensures Mul(Zero, p) == Zero
  {
    C.MulZero(p.a); C.MulZero(p.b); C.MulZero(p.c); C.MulZero(p.d);
  }

  lemma MulOneRight(p: BQ)
    ensures Mul(p, One) == p
  {
    C.UnitLaws(p.a); C.UnitLaws(p.b); C.UnitLaws(p.c); C.UnitLaws(p.d);
  }

  lemma MulOneLeft(p: BQ)
    ensures Mul(One, p) == p
  {
    C.UnitLaws(p.a); C.UnitLaws(p.b); C.UnitLaws(p.c); C.UnitLaws(p.d);
  }

  // Scalar biquaternions behave like the complex numbers they carry.

  lemma MulScalars(x: C.Complex, y: C.Complex)
    ensures Mul(Scalar(x), Scalar(y)) == Scalar(C.Mul(x, y))
  {
    C.MulZero(x);
    C.MulZero(y);
    C.MulZero(C.Zero);
    C.AddZero(C.Zero);
    C.AddZero(C.Mul(x, y));
  }

  /** A scalar multiplies from the left as it does from the right: it scales every
      coefficient, so scalars commute with every biquaternion. */
  lemma ScalarCommutes(z: C.Complex, q: BQ)
    ensures Mul(Scalar(z), q) == Mul(q, Scalar(z))
  {
    ScalarMulLeft(z, q);
    ScalarMulRight(z, q);
  }

  lemma ScalarMulLeft(z: C.Complex, q: BQ)
    ensures Mul(Scalar(z), q) == ScaleBy(q, z)
  {
    ScalarLeftCoefficient(z, q.a, q.b, q.c, q.d);
    ScalarLeftCoefficient(z, q.b, q.a, q.d, q.c);
    ScalarLeftCoefficient(z, q.c, q.d, q.a, q.b);
    ScalarLeftCoefficient(z, q.d, q.c, q.b, q.a);
  }

  /** Every coefficient of Scalar(z) * q is z times the matching coefficient of q plus
      products with the zero vector part, in one of four arrangements. */
  lemma ScalarLeftCoefficient(z: C.Complex, x: C.Complex, u: C.Complex, v: C.Complex, w: C.Complex)
    ensures C.Add(C.Sub(C.Sub(C.Neg(C.Mul(C.Zero, u)), C.Mul(C.Zero, v)), C.Mul(C.Zero, w)), C.Mul(z, x)) == C.Mul(x, z)
    ensures C.Add(C.Sub(C.Add(C.Mul(C.Zero, u), C.Mul(C.Zero, v)), C.Mul(C.Zero, w)), C.Mul(z, x)) == C.Mul(x, z)
    ensures C.Add(C.Add(C.Add(C.Neg(C.Mul(C.Zero, u)), C.Mul(C.Zero, v)), C.Mul(C.Zero, w)), C.Mul(z, x)) == C.Mul(x, z)
    ensures C.Add(C.Add(C.Sub(C.Mul(C.Zero, u), C.Mul(C.Zero, v)), C.Mul(C.Zero, w)), C.Mul(z, x)) == C.Mul(x, z)
  {
    C.MulZero(u);
    C.MulZero(v);
    C.MulZero(w);
    C.MulComm(z, x);
  }

  lemma ScalarMulRight(z: C.Complex, q: BQ)
    ensures Mul(q, Scalar(z)) == ScaleBy(q, z)
  {
    C.UnitLaws(q.a); C.UnitLaws(q.b); C.UnitLaws(q.c); C.UnitLaws(q.d);
  }

  lemma SubScalars(x: C.Complex, y: C.Complex)
    ensures Sub(Scalar(x), Scalar(y)) == Scalar(C.Sub(x, y))
  {}

  lemma NegScalar(x: C.Complex)
    ensures Neg(Scalar(x)) == Scalar(C.Neg(x))
  {}

  lemma NormSqScalar(x: C.Complex)
    ensures NormSq(Scalar(x)) == C.Mul(x, x)
  {
    C.UnitLaws(C.Mul(x, x));
    C.MulZero(C.Zero);
  }

  /** The inverse of a nonzero scalar x is the scalar x * (1/x^2). */
  lemma InverseScalar(x: C.Complex)
    requires x != C.Zero
    ensures NormSq(Scalar(x)) != C.Zero
    ensures Inverse(Scalar(x)) == Scalar(C.Mul(x, C.Inv(C.Mul(x, x))))
  {
    NormSqScalar(x);
    C.MulNonzero(x, x);
    C.UnitLaws(C.Inv(C.Mul(x, x)));
    C.UnitLaws(C.Zero);
  }
}

=== FILE: wrappers.dfy ===
/** Failure-carrying results for the partial operations of the biquaternion library.

    The Python code never raises an error of its own: a selector it does not recognise
    makes the function fall off its last branch and return `None`, and an operator
    applied to such a `None` raises a `TypeError`. The determinant prints a message
    and returns `None`. `Fault` keeps these three situations apart.
 */
module Wrappers {

  datatype Fault =
    | NoneReturned    // the function reached a `pass` or a bare end and returned None
    | NoneOperand     // an arithmetic operator was applied to a None operand (TypeError)
    | Indeterminable  // det(): top-left entry is nonzero but has zero norm

  datatype Result<+T> = Success(value: T) | Failure(fault: Fault) {

    predicate IsFailure() {
      Failure?
    }

    function PropagateFailure<U>(): Result<U>
      requires Failure?
    {
      Failure(fault)
    }

    function Extract(): T
      requires Success?
    {
      value
    }
  }
}
